=== FILE: README.md ===
# Invoice processor — a Dafny model of its core

The invoice processor is a small web application. Users drop PDF or image
invoices onto a browser page, tick the fields they want (vendor name, invoice
number, dates, amounts, line items), and send the files to a back end. The
back end builds an extraction prompt for a language model and returns one
result per file, which the page shows as cards.

This project models the logic of four parts of the application:

- **Browser page** (`Frontend`, `ResultsView`).
  - Accepting and removing files.
  - The field checkboxes and "select all".
  - When the extract button is enabled.
  - One submission cycle.
  - How a response becomes result cards: error cards, three-tab success
    cards, tab switching, and the download file name.
- **Older prompt builder** (`InvoiceProcessor`, `Catalogue`).
  - The field catalogue and its description table.
  - The REQUIRED FIELDS list and the JSON answer template.
  - The text prompt and the vision prompt.
  - Dispatch on the file extension.
  - The batch loop that turns a failing file into an error record.
- **Older Flask upload endpoint** (`FlaskUpload`).
  - `allowed_file`.
  - The ordered 400 checks.
  - The defaults of the success record.
- **Current FastAPI relay** (`Relay`).
  - Turning field ids into title-cased labels.
  - The single prompt sentence.
  - One result per uploaded file, with an error record in place of a failed
    forward.

Shared pieces:

- `Strings` holds Python/JavaScript string operations (`split`, `join`,
  `lower`, `title`, `replace`), restricted to ASCII.
- `Json` holds JSON values with JavaScript truthiness and property access.
- `Results` holds `Option` and `Result`, which stand in for `undefined` and
  for exceptions.

Everything is pure functions over immutable datatypes. Two loops are methods:
`InvoiceProcessor.RunBatch` and `Relay.Process`. The DOM is reduced to the
values it displays: the `Page` record and the `View` of the results area.
File reading, the model call, JSON encoding and HTTP are parameters of the
operations that use them.

## Model

| member | source | states |
|---|---|---|
| Catalogue.CatalogueShape | static/app.js:26-38 | the page's field catalogue has eleven entries, all distinct |
| Catalogue.LineItemsListed | static/app.js:26-38 | `line_items` is one of the catalogue fields, so "select all" always ticks it |
| Catalogue.FieldDescriptions | backend/OLD/InvoiceProcessor.py:36-48 | the description table has exactly the catalogue fields as keys |
| InvoiceProcessor.NewProcessor | backend/OLD/InvoiceProcessor.py:21-48 | a new processor has eleven common fields, each with a description, and describes no other field |
| InvoiceProcessor.DescribeNewProcessor | backend/OLD/InvoiceProcessor.py:36-58 | a new processor describes a catalogue field by its entry in the description table, and any other field by "Extract <field> from the invoice" |
| InvoiceProcessor.FieldLines | backend/OLD/InvoiceProcessor.py:55-59 | one line per configured field, in order, each "- field: description" |
| InvoiceProcessor.FieldListAppend | backend/OLD/InvoiceProcessor.py:55-65 | adding a field adds exactly one newline-separated line after the existing ones |
| InvoiceProcessor.Classify | backend/OLD/InvoiceProcessor.py:95-105 | the template kind of a field: line items only for `line_items`; amount only for the four money fields; date only for the two date fields; quantity only for `item_quantity` |
| InvoiceProcessor.JsonStructureAppend | backend/OLD/InvoiceProcessor.py:91-107 | the template has one entry per field, in input order, separated by ",\n" plus eight spaces; no fields give the empty text |
| InvoiceProcessor.PromptLayout | backend/OLD/InvoiceProcessor.py:62-87 | in the prompt the field list follows the fixed head, the JSON template follows the guidelines, and the language sits just before the closing instruction |
| InvoiceProcessor.PromptDependsOnFieldsAndLanguage | backend/OLD/InvoiceProcessor.py:50-89 | the prompt depends on the configured fields and language only, not on the file content, file type, output format or line-item flag |
| InvoiceProcessor.CreateVisionPrompt | backend/OLD/InvoiceProcessor.py:140-163 | one user message with two parts: the text prompt, then an image URL from which the base64 payload can be read back unchanged |
| InvoiceProcessor.ImagePayload | backend/OLD/InvoiceProcessor.py:157 | a URL carries a payload exactly when it starts with the JPEG data-URL prefix, and the payload is the rest of the URL |
| InvoiceProcessor.Extension | backend/OLD/InvoiceProcessor.py:167 | the extension is the lower-cased path's longest dot-free suffix; it follows a dot unless the path has none, in which case it is the whole lower-cased path |
| InvoiceProcessor.Dispatch | backend/OLD/InvoiceProcessor.py:177-190 | PDF exactly for extension `pdf`; image exactly for `jpg`, `jpeg`, `png`; otherwise the error "Unsupported file type: <ext>" |
| InvoiceProcessor.DispatchUpperCasePdf | backend/OLD/InvoiceProcessor.py:167-178 | extension case is ignored: `scan.PDF` is a PDF |
| InvoiceProcessor.ProcessSingle | backend/OLD/InvoiceProcessor.py:165-192 | the result fails exactly for an unsupported extension, with the ValueError's message; otherwise it keeps the path and config, its type follows the extension, and it holds the file's text with a text prompt (PDF) or its base64 with a vision prompt (image) |
| InvoiceProcessor.BatchEntry | backend/OLD/InvoiceProcessor.py:211-219 | a path becomes an error record with its path and message exactly when dispatch fails; otherwise it becomes the processed record |
| InvoiceProcessor.RunBatch | backend/OLD/InvoiceProcessor.py:208-221 | the loop gives one record per path, in path order, whatever happened to earlier paths |
| InvoiceProcessor.ProcessBatch | backend/OLD/InvoiceProcessor.py:205-221 | a fresh processor gives one record per path, in order, each the batch entry of that path |
| FlaskUpload.AllowedFile | backend/OLD/oldmain.py:32-33 | an allowed name contains a '.', and the lower-cased text after its last '.' is pdf, png, jpg or jpeg |
| FlaskUpload.AllowedFileByLastExtension | backend/OLD/oldmain.py:32-33 | for any name ending in '.' plus a dot-free extension, the name is allowed exactly when the lower-cased extension is in the allow-list |
| FlaskUpload.AllowedIffDispatchable | backend/OLD/oldmain.py:32-33 | for a name with a '.', `allowed_file` accepts it exactly when the prompt builder can dispatch it |
| FlaskUpload.DotlessNameRefusedButDispatchable | backend/OLD/oldmain.py:32-33 | the name `pdf` is refused by `allowed_file` yet dispatched as a PDF by the prompt builder |
| FlaskUpload.AllowedFileIgnoresCase | backend/OLD/oldmain.py:32-33 | `x.PDF` is allowed |
| FlaskUpload.AllowedFileReadsLastExtension | backend/OLD/oldmain.py:32-33 | `x.pdf.exe` is refused: only the last extension counts |
| FlaskUpload.ValidateUpload | backend/OLD/oldmain.py:78-95 | the checks run in order, each failing one giving status 400 with its own message, and each message happens exactly in its case; on success the fields are the form value split on ",", which joins back to it, and language and format default to "en" and "json" |
| FlaskUpload.LoneCommaPasses | backend/OLD/oldmain.py:90-95 | a fields value of "," passes the check with two empty field names |
| FlaskUpload.FieldsRoundTrip | backend/OLD/oldmain.py:90 | comma-free field names sent comma-joined come back as the same list |
| FlaskUpload.ResponseReportsPromptUsed | backend/OLD/oldmain.py:111-128 | for a processed upload the response reports as `promptUsed` the PDF's text prompt as built, or the image's vision request serialised |
| FlaskUpload.BuildResponseKeepsParsed | backend/OLD/oldmain.py:124-131 | the record keeps the file name and raw answer, and passes through the extracted fields, confidence and notes the parsed answer has |
| FlaskUpload.BuildResponseGetsEachKey | backend/OLD/oldmain.py:124-131 | for any parsed answer, each of the three keys is passed through when present and replaced by its own default (`{}`, "N/A", "") when absent, independently of the other two |
| FlaskUpload.BuildResponseDefaults | backend/OLD/oldmain.py:126-130 | an answer with none of the three keys gets all three defaults |
| Relay.Label | backend/main.py:41 | a label has the field's length and no '_'; underscores become spaces, a letter that starts a run of letters is upper-cased, and any other letter is lower-cased |
| Relay.LabelOfLowerWord | backend/main.py:41 | a lower-case word is labelled by capitalising its first letter |
| Relay.LabelJoinsWords | backend/main.py:41 | two letter words joined by '_' are labelled word by word and joined by a space (`due_date` becomes `Due Date`) |
| Relay.Labels | backend/main.py:41 | one label per field, in order |
| Relay.PromptFor | backend/main.py:42 | the prompt is the fixed lead, then the labels joined by ", ", then a full stop |
| Relay.PromptForAppend | backend/main.py:41-42 | one more field adds ", " and its label to the list |
| Relay.ErrorRecord | backend/main.py:63-67 | the error record carries the file name, the error message and the prompt |
| Relay.Process | backend/main.py:40-72 | the prompt is built once, and there is exactly one result per uploaded file, in upload order: the answer forwarding that file returned, or an error record with the file's name, the message and the prompt |
| Relay.ErrorRecordOnThePage | backend/main.py:63-67 | the page shows a failed forward as an error card exactly when the message is non-empty; with an empty message it shows a success card whose Prompt tab holds the prompt |
| Frontend.Filter | static/app.js:89-91 | `filter`: an element is kept exactly when it is in the input and passes |
| Frontend.FilterAppend | static/app.js:89-91 | filtering distributes over concatenation, so the order of arrival survives |
| Frontend.ValidFiles | static/app.js:89-91 | the accepted files are those of the batch with one of the four valid MIME types; none is accepted exactly when every file is invalid |
| Frontend.UpdateExtractButton | static/app.js:337-343 | the button is enabled exactly when some box is checked and the list is non-empty; nothing else changes |
| Frontend.HandleFiles | static/app.js:81-121 | an error exactly for a non-empty batch with no valid file, and then the list is the kept part and the button is untouched; otherwise the list is the kept part followed by the valid files, and the button is re-evaluated only when every accepted file is a PDF (an image's preview throws first) and otherwise left as it was; nothing else changes |
| Frontend.HandleFilesKeepsOnlyValid | static/app.js:84-102 | after any batch the list holds only files kept from before or valid files of the batch |
| Frontend.HandleFilesIntended | static/app.js:81-121 | the intended handler: the same list and error box, with the button re-evaluated after every accepted batch |
| Frontend.HandleFilesAgreesOnPdfs | static/app.js:114-115 | when every accepted file is a PDF, the handler as written and as intended coincide |
| Frontend.ImageUploadLeavesButtonDisabled | static/app.js:172-192 | dropping one PNG on an empty list with a field checked lists the file and clears the error box, yet leaves the button disabled though the page is ready; the intended handler enables it |
| Frontend.BrowseAccumulates | static/app.js:76-102 | a multi-file input that already holds files appends the valid part of the next batch |
| Frontend.RejectedBatchAfterReset | static/app.js:84-96 | a rejected batch still empties the list when the input resets first, and leaves the button as it was |
| Frontend.EmptyBatchIsNoError | static/app.js:93-102 | an empty batch raises no error |
| Frontend.WithoutName | static/app.js:210-220 | the files whose name differs; unchanged when none has the name |
| Frontend.RemoveFile | static/app.js:210-238 | every entry with the name leaves the list and the input's selection, the rest keep their order; the button is re-evaluated unless the name holds a '"', whose preview selector throws and skips the update; nothing else changes |
| Frontend.RemoveFileIntended | static/app.js:210-235 | the corrected removal: the same list and selection, with the button always re-evaluated |
| Frontend.RemoveFileAgreesWithoutQuote | static/app.js:232-234 | for a name without '"' the removal as written is the corrected one |
| Frontend.QuotedNameLeavesButtonEnabled | static/app.js:232-237 | removing the only file, named with a '"', leaves the button enabled on an empty list, where the corrected removal disables it |
| Frontend.RemoveAbsentIsNoOp | static/app.js:210-238 | removing an absent name changes nothing but the button, which is re-evaluated unless the preview lookup throws |
| Frontend.RemoveKeepsOrder | static/app.js:220 | removal from a concatenation is removal from each part |
| Frontend.RemoveIdempotent | static/app.js:210-235 | removing the same name twice is removing it once |
| Frontend.TotalBytesAppend | static/app.js:203 | the size total of two lists is the sum of their totals |
| Frontend.TotalKB | static/app.js:204 | the kilobyte figure is the nearest whole number of kilobytes, with halves rounded up |
| Frontend.SelectedFields | static/app.js:407-413 | the selection holds exactly the names of the checked boxes, and is non-empty exactly when some box is checked |
| Frontend.SelectedFieldsOne | static/app.js:409-411 | one box contributes its name exactly when it is checked |
| Frontend.SelectedFieldsAppend | static/app.js:409-411 | the selection follows document order: the selection of a panel is that of its first part followed by that of the rest |
| Frontend.SelectedFieldsAllChecked | static/app.js:407-413 | when every box is checked, the selection is every name in document order |
| Frontend.SetCheckbox | static/app.js:356-358 | a change event toggles one box and only that box changes; the button is re-evaluated; the line-item options follow the `line_items` box; nothing else on the page changes |
| Frontend.LineItemsBox | static/app.js:351 | the first box named `line_items`, or none when no box has that name |
| Frontend.LineItemsBoxByNames | static/app.js:351 | the lookup depends on the box names only |
| Frontend.SelectAllOf | static/app.js:345-354 | each box is checked exactly when its name is in the list; with a `line_items` box the options follow it and the button is re-evaluated; without one the lookup throws, and options and button stay as they were; nothing else changes |
| Frontend.SelectAll | static/app.js:345-354 | with the page's catalogue, a panel holding a `line_items` box ends with the line-item options shown and the button enabled exactly when files are listed; nothing but boxes, options and button changes |
| Frontend.SelectAllOnCatalogue | static/app.js:345-348 | on a panel of the catalogue fields, "select all" selects the whole catalogue in catalogue order |
| Frontend.ClickExtract | static/app.js:361-386 | a request is sent exactly when the button is enabled and files are listed; it carries every listed file and the selected fields; the button is then disabled and the progress bar shown, and nothing else changes |
| Frontend.CompleteExtract | static/app.js:388-402 | after any outcome the button is enabled and the progress bar hidden; a thrown error is reported with its message and a bad status as "Server error", leaving the results as they were; a good response is displayed and reported with its `length` value, or as a failure for a `null` body; nothing else changes |
| Frontend.LengthOf | static/app.js:393 | `results.length`: the length of an array, a string's count of UTF-16 code units, an object's own `length` member whatever its value, and undefined for anything else |
| Frontend.Utf16Length | static/app.js:393 | a string's JavaScript length lies between its character count and twice that |
| Frontend.Utf16LengthAppend | static/app.js:393 | the JavaScript length of a concatenation is the sum of the lengths |
| Frontend.Utf16LengthIsLengthIff | static/app.js:393 | the JavaScript length equals the character count exactly when no character lies above U+FFFF |
| Frontend.SecondClickSendsNothing | static/app.js:361-365 | a second click on the just-disabled button sends nothing |
| Frontend.CheckboxChangeReenablesInFlight | static/app.js:337-358 | ticking an unticked box while a request is in flight turns the button back on, and a second request can then be sent |
| Frontend.UpdateExtractButtonGuarded | static/app.js:337-339 | the intended button rule: enabled exactly when the page is ready and no request is in flight |
| Frontend.GuardedButtonStaysOffInFlight | static/app.js:361-365 | with the guarded rule, no re-evaluation during a request lets a second request start |
| Frontend.GuardedAgreesWhenIdle | static/app.js:337-339 | outside a request the guarded rule is the code's rule |
| Frontend.ClickWithNoFilesDoesNothing | static/app.js:362 | a click with an empty list does nothing |
| Frontend.StaleButtonAfterRejectedBatch | static/app.js:84-96 | a rejected batch in a single-file input empties the list but leaves the button enabled, and only the guard in the click handler stops an empty request |
| Frontend.SuccessfulCycleShowsOneCardPerResult | static/app.js:388-393 | a good response with N non-null results reports N files and shows N cards, each success card on its Structured tab |
| ResultsView.CreateCard | static/app.js:440-479 | an error card exactly when `error` is truthy, showing the name and the error; otherwise a success card with Structured active and a Prompt tab showing `promptUsed`, or "N/A" when that is falsy |
| ResultsView.RenderAll | static/app.js:426-429 | cards are appended in order, one per result, until the first `null` stops rendering |
| ResultsView.DisplayOneCardPerResult | static/app.js:416-431 | an array without nulls gives one card per result, in order, each an error card exactly when its `error` is truthy |
| ResultsView.DisplayEmpty | static/app.js:421-424 | a falsy or empty response shows only the placeholder |
| ResultsView.ClickTab | static/app.js:482-495 | an error card is left as it is; a success card keeps its content and ends with exactly the clicked tab active, button and pane |
| ResultsView.ClickTabsLastWins | static/app.js:482-495 | after any sequence of clicks on a success card, the last tab clicked is the only active one |
| ResultsView.ClickCardTab | static/app.js:426-436 | a tab click acts on the clicked card only, and only when rendering finished, since the handlers are attached after the last card; on a stopped view, or with no such card, nothing changes |
| ResultsView.NullResultLeavesTabsDead | static/app.js:426-436 | when the results hold a `null`, the cards drawn before it get no tab handlers, so no tab click changes the view |
| ResultsView.DisplayedTabsRespond | static/app.js:426-495 | when the results hold no `null`, a tab click on a success card makes exactly that tab active on it |
| ResultsView.DownloadName | static/app.js:526 | the download name is the file name's text before its first '.', then `_extracted.json` |
| ResultsView.DownloadNameNoDot | static/app.js:526 | a name without a dot is used whole |
| Strings.Split | backend/OLD/oldmain.py:90 | `split` on one character gives at least one piece, none containing the separator, and a single piece exactly when there is no separator |
| Strings.JoinSplit | backend/OLD/oldmain.py:90 | joining the pieces of a split with the separator restores the string |
| Strings.SplitJoin | backend/OLD/oldmain.py:90 | splitting a join of separator-free pieces recovers the pieces |
| Strings.SplitIsEmptyPieceIff | backend/OLD/oldmain.py:94 | the split is the single empty piece exactly for the empty string |
| Strings.JoinAppend | backend/OLD/InvoiceProcessor.py:65 | joining two non-empty lists puts one separator between their joins |
| Strings.AfterLastShape | backend/OLD/InvoiceProcessor.py:167 | `split(c)[-1]` is the longest separator-free suffix |
| Strings.BeforeFirstShape | static/app.js:526 | `split(c)[0]` is the longest separator-free prefix |
| Strings.AfterLastOfAppend | backend/OLD/oldmain.py:33 | the text after the last separator of `a + c + b`, when `b` has none, is `b` |
| Strings.Lower | backend/OLD/InvoiceProcessor.py:167 | `lower` maps each character to its lower-case form and keeps the length |
| Strings.SplitLower | backend/OLD/InvoiceProcessor.py:167 | lower-casing commutes with splitting on a non-letter |
| Strings.AfterLastLower | backend/OLD/oldmain.py:33 | the lower-cased last extension is the last extension of the lower-cased name |
| Strings.TitlePointwise | backend/main.py:41 | `title` upper-cases a letter that starts a run of letters, lower-cases every other letter, and keeps all other characters |

## Left out

- Previews, thumbnails, the preview modal, PDF.js and FileReader
  (app.js:123-198, 242-334) are not modelled as what they display. The one
  effect of the preview code on the rest of the page, its throw for an
  image, is modelled; see the Frontend.HandleFiles lines below.
- The status text, the MB figure built with `toFixed(2)`, and notification
  timers are not modelled. Text formatting of floats is outside the model.
- Notifications are kept only as the `Notice` of a submission cycle.
- The copy-to-clipboard button is not modelled. The download button is
  modelled only as its file name.
- `fetch`, `FormData` and response parsing are reduced to an `Outcome`
  value given to `Frontend.CompleteExtract`. The network is outside the
  model.
- The lineItemsCheckbox element is taken to be the panel checkbox named
  `line_items`, and the `line_items` lookup in "select all" searches the
  panel's boxes.
- Non-string file names are not modelled as attribute text. Card fields
  keep the JSON value instead.
- JSON numbers are integers, so floating-point truthiness is not
  modelled. JSON encoding (`JSON.stringify`, `json.dumps`) is a parameter.
- `Json.Prop` does not model the properties of arrays and strings.
  `length` is read only where the code reads it.
- PDF text extraction (PyMuPDF, then PyPDF2) and base64 encoding are the
  `readPdf` and `readImage` parameters. They report failures as text, as
  the code does, so they never fail in the model.
- `parse_model_response`, `ModelAPIClient`, and the model call are not
  modelled. `FlaskUpload.BuildResponse` takes the parsed answer as given.
- FlaskUpload.BuildResponse: in oldmain.py as written the record is never
  built. The `model_client` assignment (oldmain.py:70-72) is commented out,
  so the call at :115 raises NameError and the handler answers 500 with
  "name 'model_client' is not defined" (:140-141). The model describes the
  record the handler would build with a configured client.
- Saving and deleting temporary files, routing, CORS,
  the health, fields and static routes, and the 500 handler of oldmain.py
  are I/O and are not modelled. `secure_filename` is not modelled either;
  see the FlaskUpload.AllowedIffDispatchable line below.
- `requests.post` in main.py is the `forward` parameter of `Relay.Process`.
  `json.loads` of the field list is not modelled: the relay takes the
  parsed list.
- `create_config_from_selection` and `display_extraction_results`
  (InvoiceProcessor.py:195-298) are notebook helpers and are not modelled.
  So are test.py and process.py.
- Strings.Lower: Python's `lower` is modelled on ASCII letters only, with
  no Unicode case mapping.
- Strings.TitlePointwise: Python's `title` is modelled on ASCII letters
  only, with no Unicode case mapping.
- FlaskUpload.AllowedIffDispatchable: the agreement is between
  `allowed_file` and dispatch on the same name. The handler dispatches the
  name after werkzeug's `secure_filename` (oldmain.py:98-111), a pure
  renaming that is not modelled. It can change the extension: `.pdf` is
  allowed, but becomes `pdf`, whose dispatch fails and gives a 500, and a
  non-ASCII stem such as `中文.pdf` fares the same. The lemma therefore does
  not promise that every allowed upload reaches the prompt builder.
- ResultsView.ClickTab: it is the handler of app.js:482-495 on one card.
  Whether a card has the handler at all is decided by
  ResultsView.ClickCardTab: none does after rendering stopped on a `null`.
- Relay.Label: Python's `title` also treats non-ASCII cased characters as
  letters. The label contract covers ASCII only.
- FlaskUpload.ValidateUpload: the `not fields` test in the code can never
  hold, because `split` always yields at least one piece. The model keeps
  only the `fields == ['']` case that can happen.
- Frontend.HandleFiles: the code clears the list before it checks the
  batch. A rejected batch in a resetting input therefore empties the list,
  which a description of "keeping the previous list" would not. The model
  follows the code.
- Frontend.RemoveFile: only a '"' is taken to break the preview selector.
  Other CSS escapes in a name (a backslash, a newline) are not modelled.
- ResultsView.DownloadName: the card writes the file name into the
  `data-filename` attribute unescaped (app.js:458), and the download handler
  reads it back (:519). A '"' in the name ends the attribute early, and
  HTML character references are decoded, so the name given to
  DownloadName can differ from the card's file name. The model takes the
  name as read back.
- Frontend.HandleFiles: the `catch` of the handler is modelled only for the
  preview step, which throws on the first image. The notification it shows
  and the previews built before the throw are not modelled.
- Relay.Process: writing each upload to a temporary file and removing it
  (main.py:48-50, 69) happen outside the `try`. A failure there aborts the
  whole request without a per-file record; the model does not include it.
  `forward` stands for the post of the file's own bytes with the prompt.
- Frontend.CompleteExtract: the notification text itself is not built; the
  `Notice` keeps the value of `results.length` that it prints.

## Findings

| source | as written | input that shows it | evidently intended | confidence | as-written member | corrected member |
|---|---|---|---|---|---|---|
| static/app.js:114-115 | an image's preview has no remove button yet, so attaching its handler throws (app.js:191-192) and `updateExtractButtonState` is skipped; the same throw skips `appendChild` at :197, so the image and every later file of the batch get no preview and no remove button, and `removeFile` cannot be reached for them | a page with one checked box, an empty list and a disabled button; drop one file `a.png` of type image/png | the button is re-evaluated after every accepted batch, so it is enabled here | high; not executed | Frontend.ImageUploadLeavesButtonDisabled | Frontend.HandleFilesIntended |
| static/app.js:337-339 | the button rule ignores a request in flight, so a checkbox change during the `await` re-enables the button | click extract with files listed and a box checked, then tick a second, unticked box before the response arrives, then click extract | no second request starts while one is in flight | medium; not executed | Frontend.CheckboxChangeReenablesInFlight | Frontend.GuardedButtonStaysOffInFlight |
| static/app.js:232-234 | the preview selector `[data-filename="${filename}"]` is built from the raw name, so a '"' in it makes `querySelector` throw and the `catch` skips `updateExtractButtonState` | a page with one listed PDF named `say "hi".pdf`, a ticked box and the button enabled; click that file's remove button | the button is re-evaluated after every removal, so it is disabled on the now empty list | high; not executed | Frontend.QuotedNameLeavesButtonEnabled | Frontend.RemoveFileIntended |

=== FILE: catalogue.dfy ===
/** The fixed field catalogue that both the browser page and the prompt
    builder carry, and the prompt builder's description table. */
module Catalogue {

  /** The eleven extractable fields, in catalogue order. */
  const CommonFields: seq<string> := [
    "vendor_name",
    "invoice_number",
    "invoice_date",
    "due_date",
    "total_amount",
    "tax_amount",
    "line_items",
    "item_description",
    "item_quantity",
    "item_unit_price",
    "item_total"
  ]

  /** The catalogue has eleven distinct entries. */
  lemma CatalogueShape()
    ensures |CommonFields| == 11
    ensures forall i, j :: 0 <= i < j < |CommonFields| ==> CommonFields[i] != CommonFields[j]
  {
  }

  /** The catalogue offers line items. A page built from it therefore has a
      `line_items` box; a page whose boxes come from elsewhere need not. */
  lemma LineItemsListed()
    ensures "line_items" in CommonFields
  {
    assert CommonFields[6] == "line_items";
  }

  /** Field id to the prose description used in the extraction prompt. */
  function FieldDescriptions(): (m: map<string, string>)
    ensures m.Keys == set f | f in CommonFields
  {
    map[
      "vendor_name" := "The name of the company or individual providing the goods/services",
      "invoice_number" := "Unique identifier for this invoice",
      "invoice_date" := "Date when the invoice was issued",
      "due_date" := "Payment due date",
      "total_amount" := "Total amount due including taxes",
      "tax_amount" := "Total tax amount",
      "line_items" := "List of individual items/services with details",
      "item_description" := "Description of each item/service",
      "item_quantity" := "Quantity of each item",
      "item_unit_price" := "Price per unit for each item",
      "item_total" := "Total amount for each line item"
    ]
  }
}

=== FILE: flask_upload.dfy ===
/** The older Flask upload endpoint: the extension allow-list, the ordered
    400 checks at the top of the upload handler, and the defaults of the
    success record it returns. */
module FlaskUpload {
  import opened Results
  import opened Strings
  import opened Json
  import InvoiceProcessor

  const AllowedExtensions: set<string> := {"pdf", "png", "jpg", "jpeg"}

  /** Position `k` holds the last '.' of `filename`. */
  predicate LastDotAt(filename: string, k: int)
  {
    0 <= k < |filename| && filename[k] == '.' && '.' !in filename[k + 1..]
  }

  /** `allowed_file`: the name has a '.', and the lower-cased text after its
      last '.' is an allowed extension. */
  function AllowedFile(filename: string): (r: bool)
    ensures r ==> '.' in filename
    ensures r ==> exists k :: LastDotAt(filename, k) && Lower(filename[k + 1..]) in AllowedExtensions
  {
    AfterLastShape(filename, '.');
    var ext := AfterLast(filename, '.');
    assert '.' in filename ==> LastDotAt(filename, |filename| - |ext| - 1) && filename[|filename| - |ext|..] == ext;
    '.' in filename && Lower(ext) in AllowedExtensions
  }

  /** Whatever precedes the last '.', the name is allowed exactly when the
      case-folded text after it is an allowed extension. */
  lemma AllowedFileByLastExtension(stem: string, ext: string)
    requires '.' !in ext
    ensures AllowedFile(stem + ['.'] + ext) <==> Lower(ext) in AllowedExtensions
  {
    AfterLastOfAppend(stem, '.', ext);
    assert (stem + ['.'] + ext)[|stem|] == '.';
  }

  /** A name with a '.' passes `allowed_file` exactly when the prompt builder
      can dispatch it: both read the case-folded last extension. */
  lemma AllowedIffDispatchable(filename: string)
    requires '.' in filename
    ensures AllowedFile(filename) <==> InvoiceProcessor.Dispatch(filename).Success?
  {
    AfterLastLower(filename, '.');
  }

  /** Without a '.', `allowed_file` refuses a name the prompt builder would
      take whole as its extension. */
  lemma DotlessNameRefusedButDispatchable()
    ensures !AllowedFile("pdf")
    ensures InvoiceProcessor.Dispatch("pdf") == Success(InvoiceProcessor.Pdf)
  {
    SplitNoSeparator("pdf", '.');
    assert Lower("pdf") == "pdf";
  }

  /** The extension's case is ignored. */
  lemma AllowedFileIgnoresCase()
    ensures AllowedFile("x.PDF")
  {
    AllowedFileByLastExtension("x", "PDF");
    assert "x.PDF" == "x" + ['.'] + "PDF";
    assert Lower("PDF") == "pdf";
  }

  /** Only the last extension counts. */
  lemma AllowedFileReadsLastExtension()
    ensures !AllowedFile("x.pdf.exe")
  {
    var ext := "exe";
    assert Lower(ext) == "exe";
    AllowedFileByLastExtension("x.pdf", ext);
    assert !AllowedFile("x.pdf" + ['.'] + ext);
    assert "x.pdf" + ['.'] + ext == "x.pdf.exe";
  }

  /** The multipart form as the handler reads it: the file name of the
      `file` part if there is one, and the optional text fields. */
  datatype UploadForm = UploadForm(
    file: Option<string>,
    fields: Option<string>,
    outputLanguage: Option<string>,
    outputFormat: Option<string>)

  datatype Accepted = Accepted(filename: string, fields: seq<string>, outputLanguage: string, outputFormat: string)

  datatype HttpError = HttpError(status: int, message: string)

  /** The checks the upload handler makes before touching the file, in order;
      the first that fails decides the response. */
  function ValidateUpload(form: UploadForm): (r: Result<Accepted, HttpError>)
    ensures r.Failure? ==> r.error.status == 400
    ensures r == Failure(HttpError(400, "No file provided")) <==> form.file.None?
    ensures r == Failure(HttpError(400, "No file selected")) <==> form.file == Some("")
    ensures r == Failure(HttpError(400, "File type not allowed")) <==>
      form.file.Some? && form.file.value != "" && !AllowedFile(form.file.value)
    ensures r == Failure(HttpError(400, "No fields specified")) <==>
      form.file.Some? && form.file.value != "" && AllowedFile(form.file.value) && form.fields.GetOr("") == ""
    ensures r.Success? ==> r.value.filename == form.file.value && |r.value.fields| >= 1
    ensures r.Success? ==> r.value.fields == Split(form.fields.value, ',')
    ensures r.Success? ==> Join(",", r.value.fields) == form.fields.value
    ensures r.Success? ==> (r.value.outputLanguage == form.outputLanguage.GetOr("en") &&
                            r.value.outputFormat == form.outputFormat.GetOr("json"))
  {
    if form.file.None? then Failure(HttpError(400, "No file provided"))
    else if form.file.value == "" then Failure(HttpError(400, "No file selected"))
    else if !AllowedFile(form.file.value) then Failure(HttpError(400, "File type not allowed"))
    else
      var raw := form.fields.GetOr("");
      var fields := Split(raw, ',');
      SplitIsEmptyPieceIff(raw, ',');
      JoinSplit(raw, ',');
      if |fields| == 0 || fields == [""] then Failure(HttpError(400, "No fields specified"))
      else Success(Accepted(form.file.value, fields, form.outputLanguage.GetOr("en"), form.outputFormat.GetOr("json")))
  }

  /** A lone comma is not rejected: it yields two empty field names. */
  lemma LoneCommaPasses(name: string)
    requires name != "" && AllowedFile(name)
    ensures ValidateUpload(UploadForm(Some(name), Some(","), None, None))
         == Success(Accepted(name, ["", ""], "en", "json"))
  {
    assert Split(",", ',') == ["", ""] by {
      assert ","[1..] == "";
    }
  }

  /** A comma-joined list of comma-free field names comes back unchanged. */
  lemma FieldsRoundTrip(name: string, fields: seq<string>)
    requires name != "" && AllowedFile(name)
    requires |fields| >= 1 && fields != [""]
    requires forall i :: 0 <= i < |fields| ==> ',' !in fields[i]
    ensures ValidateUpload(UploadForm(Some(name), Some(Join(",", fields)), None, None)).Success?
    ensures ValidateUpload(UploadForm(Some(name), Some(Join(",", fields)), None, None)).value.fields == fields
  {
    SplitJoin(fields, ',');
  }

  /** The success record the handler returns. */
  datatype SuccessRecord = SuccessRecord(
    fileName: string,
    extractedFields: Json,
    rawResponse: Json,
    promptUsed: string,
    confidence: Json,
    processingNotes: Json)

  /** `dict.get(key, default)`. */
  function GetOr(m: map<string, Json>, key: string, default: Json): Json
  {
    if key in m then m[key] else default
  }

  /** The response built from the parsed model answer. A vision prompt is
      serialised by `dumps` (JSON encoding is outside the model). */
  function BuildResponse(fileName: string, parsed: map<string, Json>, modelResponse: Json,
                         prompt: InvoiceProcessor.Prompt, dumps: InvoiceProcessor.VisionRequest -> string)
    : SuccessRecord
  {
    SuccessRecord(
      fileName,
      GetOr(parsed, "extracted_fields", Obj(map[])),
      modelResponse,
      match prompt
        case TextPrompt(t) => t
        case VisionPrompt(v) => dumps(v),
      GetOr(parsed, "confidence_score", Str("N/A")),
      GetOr(parsed, "processing_notes", Str("")))
  }

  /** The prompt the response reports for a processed upload: the text
      prompt of a PDF as built, the serialised vision request of an image. */
  lemma ResponseReportsPromptUsed(proc: InvoiceProcessor.Processor, path: string, config: InvoiceProcessor.Config,
                                  readPdf: string -> string, readImage: string -> string,
                                  parsed: map<string, Json>, modelResponse: Json,
                                  dumps: InvoiceProcessor.VisionRequest -> string)
    ensures var res := InvoiceProcessor.ProcessSingle(proc, path, config, readPdf, readImage);
      res.Success? ==>
        var r := BuildResponse(path, parsed, modelResponse, res.value.prompt, dumps);
        && (InvoiceProcessor.Extension(path) == "pdf" ==>
              r.promptUsed == InvoiceProcessor.ExtractionPrompt(proc, config, Some(readPdf(path)), "pdf"))
        && (InvoiceProcessor.Extension(path) != "pdf" ==>
              r.promptUsed == dumps(InvoiceProcessor.CreateVisionPrompt(proc, config, readImage(path))))
  {
  }

  /** Each of the three keys is read on its own, as `.get(key, default)`
      does: present, its value passes through; absent, its default is used. */
  lemma BuildResponseGetsEachKey(fileName: string, parsed: map<string, Json>, modelResponse: Json,
                                 prompt: InvoiceProcessor.Prompt, dumps: InvoiceProcessor.VisionRequest -> string)
    ensures var r := BuildResponse(fileName, parsed, modelResponse, prompt, dumps);
      && r.fileName == fileName && r.rawResponse == modelResponse
      && r.extractedFields == (if "extracted_fields" in parsed then parsed["extracted_fields"] else Obj(map[]))
      && r.confidence == (if "confidence_score" in parsed then parsed["confidence_score"] else Str("N/A"))
      && r.processingNotes == (if "processing_notes" in parsed then parsed["processing_notes"] else Str(""))
  {
  }

  /** Keys the parsed answer has are passed through unchanged. */
  lemma BuildResponseKeepsParsed(fileName: string, parsed: map<string, Json>, modelResponse: Json,
                                 prompt: InvoiceProcessor.Prompt, dumps: InvoiceProcessor.VisionRequest -> string)
    requires "extracted_fields" in parsed && "confidence_score" in parsed && "processing_notes" in parsed
    ensures var r := BuildResponse(fileName, parsed, modelResponse, prompt, dumps);
      && r.fileName == fileName && r.rawResponse == modelResponse
      && r.extractedFields == parsed["extracted_fields"]
      && r.confidence == parsed["confidence_score"]
      && r.processingNotes == parsed["processing_notes"]
  {
  }

  /** An answer with none of the three keys gets all three defaults. */
  lemma BuildResponseDefaults(fileName: string, modelResponse: Json, prompt: InvoiceProcessor.Prompt,
                              dumps: InvoiceProcessor.VisionRequest -> string)
    ensures var r := BuildResponse(fileName, map[], modelResponse, prompt, dumps);
      r.extractedFields == Obj(map[]) && r.confidence == Str("N/A") && r.processingNotes == Str("")
  {
  }
}

=== FILE: frontend.dfy ===
/** The browser page's own state machine: file intake, removal, the field
    checkboxes, the extract button and one submission cycle. DOM nodes,
    previews and notifications are reduced to the values they display. */
module Frontend {
  import opened Results
  import opened Json
  import Catalogue
  import ResultsView

  /** An uploaded file as the page sees it (content is not modelled). */
  datatype File = File(name: string, mime: string, size: nat)

  /** MIME types the page accepts. */
  const ValidFileTypes: seq<string> := ["application/pdf", "image/png", "image/jpeg", "image/jpg"]

  predicate IsValidType(f: File)
  {
    f.mime in ValidFileTypes
  }

  /** A checkbox in the field-selection panel. */
  datatype Checkbox = Checkbox(name: string, checked: bool)

  /** The page: the accumulated upload list, the file input's own selection
      and `multiple` attribute, the checkboxes in document order, and the
      visible flags the handlers set. */
  datatype Page = Page(
    files: seq<File>,
    inputFiles: seq<File>,
    inputMultiple: bool,
    boxes: seq<Checkbox>,
    lineItemsVisible: bool,
    errorShown: bool,
    extractEnabled: bool,
    progressVisible: bool,
    results: ResultsView.View)

  /* ---------- sequences ---------- */

  /** `Array.prototype.filter`: the elements satisfying `keep`, in order. */
  function Filter<T(!new)>(xs: seq<T>, keep: T -> bool): (r: seq<T>)
    ensures |r| <= |xs|
    ensures forall x :: x in r <==> x in xs && keep(x)
    decreases |xs|
  {
    if xs == [] then []
    else if keep(xs[0]) then [xs[0]] + Filter(xs[1..], keep)
    else Filter(xs[1..], keep)
  }

  /** Filtering distributes over concatenation, so arrival order survives. */
  lemma {:induction false} FilterAppend<T(!new)>(xs: seq<T>, ys: seq<T>, keep: T -> bool)
    ensures Filter(xs + ys, keep) == Filter(xs, keep) + Filter(ys, keep)
    decreases |xs|
  {
    if xs != [] {
      assert (xs + ys)[0] == xs[0];
      assert (xs + ys)[1..] == xs[1..] + ys;
      FilterAppend(xs[1..], ys, keep);
    } else {
      assert xs + ys == ys;
    }
  }

  /** Filtering keeps everything exactly when every element passes. */
  lemma {:induction false} FilterAllKept<T(!new)>(xs: seq<T>, keep: T -> bool)
    requires forall i :: 0 <= i < |xs| ==> keep(xs[i])
    ensures Filter(xs, keep) == xs
    decreases |xs|
  {
    if xs != [] {
      FilterAllKept(xs[1..], keep);
    }
  }

  /* ---------- file intake ---------- */

  /** The accepted part of a batch. */
  function ValidFiles(batch: seq<File>): (r: seq<File>)
    ensures forall f :: f in r <==> f in batch && IsValidType(f)
    ensures |r| == 0 <==> forall i :: 0 <= i < |batch| ==> !IsValidType(batch[i])
  {
    var r := Filter(batch, IsValidType);
    assert |r| > 0 ==> r[0] in batch;
    assert |r| == 0 ==> forall i :: 0 <= i < |batch| ==> batch[i] !in r;
    r
  }

  /** `handleFiles` clears the list first when the input is single-file or
      currently holds no files. */
  predicate ResetsFirst(p: Page)
  {
    !p.inputMultiple || |p.inputFiles| == 0
  }

  /** The list `handleFiles` starts from. */
  function Kept(p: Page): seq<File>
  {
    if ResetsFirst(p) then [] else p.files
  }

  /** `areFieldsSelected() && uploadedFiles.length > 0`. */
  predicate Ready(p: Page)
  {
    AreFieldsSelected(p.boxes) && |p.files| > 0
  }

  /** `updateExtractButtonState`. */
  function UpdateExtractButton(p: Page): (r: Page)
    ensures r.extractEnabled <==> (exists i :: 0 <= i < |p.boxes| && p.boxes[i].checked) && p.files != []
    ensures r.(extractEnabled := p.extractEnabled) == p
  {
    p.(extractEnabled := Ready(p))
  }

  /** `createInvoicePreview` finds the preview's remove button at once only
      for a PDF; an image's preview is filled in later by the file reader, so
      the button lookup yields null and attaching its handler throws. */
  predicate PreviewBuiltAtOnce(f: File)
  {
    f.mime == "application/pdf"
  }

  predicate AllPreviewsBuiltAtOnce(fs: seq<File>)
  {
    forall i :: 0 <= i < |fs| ==> PreviewBuiltAtOnce(fs[i])
  }

  /** `handleFiles(batch)`, as the code runs. A non-empty batch with no
      acceptable file raises the error and returns before the button is
      re-evaluated. Otherwise the accepted files are appended; the previews
      are then built, and the first image among them throws into the
      handler's `catch`, so the button is re-evaluated only when every
      accepted file is a PDF. */
  function HandleFiles(p: Page, batch: seq<File>): (r: Page)
    ensures r.errorShown <==> |batch| > 0 && forall i :: 0 <= i < |batch| ==> !IsValidType(batch[i])
    ensures r.errorShown ==> r.files == Kept(p) && r.extractEnabled == p.extractEnabled
    ensures !r.errorShown ==> r.files == Kept(p) + ValidFiles(batch)
    ensures !r.errorShown && AllPreviewsBuiltAtOnce(ValidFiles(batch)) ==> r.extractEnabled == Ready(r)
    ensures !AllPreviewsBuiltAtOnce(ValidFiles(batch)) ==> r.extractEnabled == p.extractEnabled
    ensures r.(files := p.files, errorShown := p.errorShown, extractEnabled := p.extractEnabled) == p
  {
    var base := p.(files := Kept(p));
    var valid := ValidFiles(batch);
    if |valid| == 0 && |batch| > 0 then
      base.(errorShown := true)
    else
      var added := base.(errorShown := false, files := base.files + valid);
      if AllPreviewsBuiltAtOnce(valid) then UpdateExtractButton(added) else added
  }

  /** Whatever the batch, the list afterwards holds only files that were
      listed before and kept, or valid files of the batch. */
  lemma HandleFilesKeepsOnlyValid(p: Page, batch: seq<File>)
    ensures forall f :: f in HandleFiles(p, batch).files ==>
      (f in p.files && !ResetsFirst(p)) || (f in batch && IsValidType(f))
  {
  }

  /** `handleFiles` as evidently intended: the button is re-evaluated after
      every accepted batch, whatever the file types. */
  function HandleFilesIntended(p: Page, batch: seq<File>): (r: Page)
    ensures r.errorShown <==> |batch| > 0 && forall i :: 0 <= i < |batch| ==> !IsValidType(batch[i])
    ensures r.errorShown ==> r.files == Kept(p) && r.extractEnabled == p.extractEnabled
    ensures !r.errorShown ==> r.files == Kept(p) + ValidFiles(batch) && r.extractEnabled == Ready(r)
    ensures r.(files := p.files, errorShown := p.errorShown, extractEnabled := p.extractEnabled) == p
  {
    var base := p.(files := Kept(p));
    var valid := ValidFiles(batch);
    if |valid| == 0 && |batch| > 0 then
      base.(errorShown := true)
    else
      UpdateExtractButton(base.(errorShown := false, files := base.files + valid))
  }

  /** The two agree exactly up to the button: on a batch whose accepted files
      are all PDFs they coincide. */
  lemma HandleFilesAgreesOnPdfs(p: Page, batch: seq<File>)
    requires AllPreviewsBuiltAtOnce(ValidFiles(batch))
    ensures HandleFiles(p, batch) == HandleFilesIntended(p, batch)
  {
  }

  /** An accepted PNG, with a field checked, leaves the button disabled even
      though the page is ready to submit. */
  lemma ImageUploadLeavesButtonDisabled(p: Page, image: File)
    requires !p.extractEnabled && p.files == []
    requires |p.boxes| > 0 && p.boxes[0].checked
    requires image.mime == "image/png"
    ensures var r := Drop(p, [image]);
      r.files == [image] && !r.errorShown && Ready(r) && !r.extractEnabled
    ensures HandleFilesIntended(p, [image]).extractEnabled
  {
    var v := ValidFiles([image]);
    assert image in v;
    assert |v| == 1 by { assert |v| <= 1; }
    assert v == [image];
    assert !PreviewBuiltAtOnce(image);
  }

  /** Choosing files through the file input: the input's selection becomes
      the batch, then `handleFiles` runs. */
  function Browse(p: Page, selection: seq<File>): Page
  {
    HandleFiles(p.(inputFiles := selection), selection)
  }

  /** Dropping files on the drop zone leaves the input's selection as it is. */
  function Drop(p: Page, dropped: seq<File>): Page
  {
    HandleFiles(p, dropped)
  }

  /** A multi-file input that already holds files accumulates: a browsed
      batch is appended after the current list, in arrival order. */
  lemma BrowseAccumulates(p: Page, selection: seq<File>)
    requires p.inputMultiple && |selection| > 0
    requires exists i :: 0 <= i < |selection| && IsValidType(selection[i])
    ensures Browse(p, selection).files == p.files + ValidFiles(selection)
    ensures !Browse(p, selection).errorShown
  {
  }

  /** A rejected batch still clears the list when the input resets first,
      and the button keeps whatever state it had. */
  lemma RejectedBatchAfterReset(p: Page, batch: seq<File>)
    requires ResetsFirst(p) && |batch| > 0
    requires forall i :: 0 <= i < |batch| ==> !IsValidType(batch[i])
    ensures HandleFiles(p, batch).files == []
    ensures HandleFiles(p, batch).errorShown
    ensures HandleFiles(p, batch).extractEnabled == p.extractEnabled
  {
  }

  /** An empty batch is not an error. */
  lemma EmptyBatchIsNoError(p: Page)
    ensures !HandleFiles(p, []).errorShown
    ensures HandleFiles(p, []).files == Kept(p)
  {
  }

  /** Files whose name differs from `name`. */
  function WithoutName(fs: seq<File>, name: string): (r: seq<File>)
    ensures forall f :: f in r <==> f in fs && f.name != name
    ensures (forall i :: 0 <= i < |fs| ==> fs[i].name != name) ==> r == fs
  {
    if forall i :: 0 <= i < |fs| ==> fs[i].name != name then
      FilterAllKept(fs, (f: File) => f.name != name);
      Filter(fs, (f: File) => f.name != name)
    else
      Filter(fs, (f: File) => f.name != name)
  }

  /** `querySelector` on the preview selector `[data-filename="<name>"]`
      throws when the name holds a '"': the quote closes the attribute
      string early and leaves the selector malformed. */
  predicate PreviewSelectorThrows(name: string)
  {
    '"' in name
  }

  /** `removeFile(name)`: drop every entry of that name from the input and the
      list, keeping the rest in order, then look up the preview and
      re-evaluate the button. When the lookup throws, the `catch` skips the
      button update. */
  function RemoveFile(p: Page, name: string): (r: Page)
    ensures r.files == WithoutName(p.files, name) && r.inputFiles == WithoutName(p.inputFiles, name)
    ensures forall f :: f in r.files <==> f in p.files && f.name != name
    ensures forall f :: f in r.inputFiles <==> f in p.inputFiles && f.name != name
    ensures !PreviewSelectorThrows(name) ==> r.extractEnabled == Ready(r)
    ensures PreviewSelectorThrows(name) ==> r.extractEnabled == p.extractEnabled
    ensures r.(files := p.files, inputFiles := p.inputFiles, extractEnabled := p.extractEnabled) == p
  {
    var q := p.(files := WithoutName(p.files, name), inputFiles := WithoutName(p.inputFiles, name));
    if PreviewSelectorThrows(name) then q else UpdateExtractButton(q)
  }

  /** `removeFile` as evidently intended: the button is re-evaluated
      whatever the name, for instance with the selector value escaped. */
  function RemoveFileIntended(p: Page, name: string): (r: Page)
    ensures r.files == WithoutName(p.files, name) && r.inputFiles == WithoutName(p.inputFiles, name)
    ensures r.extractEnabled == Ready(r)
    ensures r.(files := p.files, inputFiles := p.inputFiles, extractEnabled := p.extractEnabled) == p
  {
    UpdateExtractButton(p.(files := WithoutName(p.files, name), inputFiles := WithoutName(p.inputFiles, name)))
  }

  /** The two agree on every name without a '"'. */
  lemma RemoveFileAgreesWithoutQuote(p: Page, name: string)
    requires !PreviewSelectorThrows(name)
    ensures RemoveFile(p, name) == RemoveFileIntended(p, name)
  {
  }

  /** Removing the only listed file when its name holds a '"' leaves the
      button enabled on an empty list; the intended handler disables it. */
  lemma QuotedNameLeavesButtonEnabled(p: Page, f: File)
    requires p.extractEnabled && p.files == [f] && '"' in f.name
    ensures var r := RemoveFile(p, f.name);
      r.files == [] && r.extractEnabled && !Ready(r)
    ensures !RemoveFileIntended(p, f.name).extractEnabled
  {
    assert WithoutName([f], f.name) == [];
  }

  /** Removing a name that is absent changes nothing but the button, which
      is brought in line with the page unless the preview lookup throws. */
  lemma RemoveAbsentIsNoOp(p: Page, name: string)
    requires forall i :: 0 <= i < |p.files| ==> p.files[i].name != name
    requires forall i :: 0 <= i < |p.inputFiles| ==> p.inputFiles[i].name != name
    ensures !PreviewSelectorThrows(name) ==> RemoveFile(p, name) == UpdateExtractButton(p)
    ensures PreviewSelectorThrows(name) ==> RemoveFile(p, name) == p
  {
  }

  /** Removal keeps the order of the rest: removing from a concatenation is
      removing from each part. */
  lemma RemoveKeepsOrder(xs: seq<File>, ys: seq<File>, name: string)
    ensures WithoutName(xs + ys, name) == WithoutName(xs, name) + WithoutName(ys, name)
  {
    FilterAppend(xs, ys, (f: File) => f.name != name);
  }

  /** Removing the same name twice is removing it once. */
  lemma RemoveIdempotent(p: Page, name: string)
    ensures RemoveFile(RemoveFile(p, name), name) == RemoveFile(p, name)
  {
  }

  /** Sum of the listed file sizes, as shown in the file summary. */
  function TotalBytes(fs: seq<File>): nat
  {
    if fs == [] then 0 else fs[0].size + TotalBytes(fs[1..])
  }

  lemma {:induction false} TotalBytesAppend(xs: seq<File>, ys: seq<File>)
    ensures TotalBytes(xs + ys) == TotalBytes(xs) + TotalBytes(ys)
  {
    if xs != [] {
      assert (xs + ys)[1..] == xs[1..] + ys;
      TotalBytesAppend(xs[1..], ys);
    } else {
      assert xs + ys == ys;
    }
  }

  /** `Math.round(totalBytes / 1024)`: the nearest whole kilobyte, halves up. */
  function TotalKB(bytes: nat): (kb: nat)
    ensures kb * 1024 <= bytes + 512 < kb * 1024 + 1024
  {
    (bytes + 512) / 1024
  }

  /* ---------- field selection ---------- */

  predicate AreFieldsSelected(boxes: seq<Checkbox>)
  {
    exists i :: 0 <= i < |boxes| && boxes[i].checked
  }

  /** `getSelectedFields`: names of the checked boxes in document order. */
  function SelectedFields(boxes: seq<Checkbox>): (r: seq<string>)
    ensures |r| <= |boxes|
    ensures forall n :: n in r <==> exists i :: 0 <= i < |boxes| && boxes[i].checked && boxes[i].name == n
    ensures |r| > 0 <==> AreFieldsSelected(boxes)
  {
    if boxes == [] then []
    else
      var rest := SelectedFields(boxes[1..]);
      assert forall i :: 1 <= i < |boxes| ==> boxes[i] == boxes[1..][i - 1];
      if boxes[0].checked then [boxes[0].name] + rest else rest
  }

  /** The selection of one box: its name exactly when it is checked. */
  lemma SelectedFieldsOne(b: Checkbox)
    ensures SelectedFields([b]) == if b.checked then [b.name] else []
  {
    assert [b][1..] == [];
  }

  /** The selection follows document order: the selection of a panel is the
      selection of its first part followed by that of the rest. */
  lemma {:induction false} SelectedFieldsAppend(a: seq<Checkbox>, b: seq<Checkbox>)
    ensures SelectedFields(a + b) == SelectedFields(a) + SelectedFields(b)
    decreases |a|
  {
    if a == [] {
      assert a + b == b;
    } else {
      assert (a + b)[0] == a[0];
      assert (a + b)[1..] == a[1..] + b;
      SelectedFieldsAppend(a[1..], b);
    }
  }

  /** When every box is checked, the selection is every name in order. */
  lemma {:induction false} SelectedFieldsAllChecked(boxes: seq<Checkbox>)
    requires forall i :: 0 <= i < |boxes| ==> boxes[i].checked
    ensures SelectedFields(boxes) == seq(|boxes|, i requires 0 <= i < |boxes| => boxes[i].name)
  {
    if boxes != [] {
      SelectedFieldsAllChecked(boxes[1..]);
    }
  }

  /** A checkbox `change` event: the box toggles to `on`, the button is
      re-evaluated, and for the `line_items` box the line-item options are
      shown or hidden. The event fires only when the state really changes. */
  function SetCheckbox(p: Page, i: nat, on: bool): (r: Page)
    requires i < |p.boxes| && on != p.boxes[i].checked
    ensures |r.boxes| == |p.boxes| && r.boxes[i] == Checkbox(p.boxes[i].name, on)
    ensures forall j :: 0 <= j < |p.boxes| && j != i ==> r.boxes[j] == p.boxes[j]
    ensures r.extractEnabled <==> (exists j :: 0 <= j < |r.boxes| && r.boxes[j].checked) && r.files != []
    ensures r.lineItemsVisible == (if p.boxes[i].name == "line_items" then on else p.lineItemsVisible)
    ensures r.(boxes := p.boxes, lineItemsVisible := p.lineItemsVisible, extractEnabled := p.extractEnabled) == p
  {
    var boxes := p.boxes[i := Checkbox(p.boxes[i].name, on)];
    var vis := if p.boxes[i].name == "line_items" then on else p.lineItemsVisible;
    UpdateExtractButton(p.(boxes := boxes, lineItemsVisible := vis))
  }

  /** Index of the first box named `line_items`, if any. */
  function LineItemsBox(boxes: seq<Checkbox>): (r: Option<nat>)
    ensures r.Some? ==> r.value < |boxes| && boxes[r.value].name == "line_items"
    ensures r.Some? ==> forall j :: 0 <= j < r.value ==> boxes[j].name != "line_items"
    ensures r.None? ==> forall j :: 0 <= j < |boxes| ==> boxes[j].name != "line_items"
  {
    if boxes == [] then None
    else if boxes[0].name == "line_items" then Some(0)
    else match LineItemsBox(boxes[1..])
      case None => None
      case Some(k) => Some(k + 1)
  }

  /** The lookup sees only names. */
  lemma {:induction false} LineItemsBoxByNames(a: seq<Checkbox>, b: seq<Checkbox>)
    requires |a| == |b|
    requires forall i :: 0 <= i < |a| ==> a[i].name == b[i].name
    ensures LineItemsBox(a) == LineItemsBox(b)
  {
    if a != [] {
      LineItemsBoxByNames(a[1..], b[1..]);
    }
  }

  /** The "select all" click against a list `common` of field ids: every box
      is checked exactly when its name is in `common`; then the line-item
      options follow the `line_items` box and the button is re-evaluated.
      With no such box the lookup throws and the handler stops after the
      boxes were set. */
  function SelectAllOf(p: Page, common: seq<string>): (r: Page)
    ensures |r.boxes| == |p.boxes|
    ensures forall i :: 0 <= i < |p.boxes| ==>
      r.boxes[i].name == p.boxes[i].name && (r.boxes[i].checked <==> p.boxes[i].name in common)
    ensures LineItemsBox(p.boxes).Some? ==>
      (r.lineItemsVisible <==> "line_items" in common) && r.extractEnabled == Ready(r)
    ensures LineItemsBox(p.boxes).None? ==>
      r.lineItemsVisible == p.lineItemsVisible && r.extractEnabled == p.extractEnabled
    ensures r.(boxes := p.boxes, lineItemsVisible := p.lineItemsVisible, extractEnabled := p.extractEnabled) == p
  {
    var boxes := seq(|p.boxes|, i requires 0 <= i < |p.boxes| =>
                       Checkbox(p.boxes[i].name, p.boxes[i].name in common));
    LineItemsBoxByNames(p.boxes, boxes);
    match LineItemsBox(boxes)
    case None => p.(boxes := boxes)
    case Some(k) => UpdateExtractButton(p.(boxes := boxes, lineItemsVisible := boxes[k].checked))
  }

  /** The page's own "select all": the catalogue holds `line_items`, so when
      the panel has that box the line-item options are shown. */
  function SelectAll(p: Page): (r: Page)
    ensures |r.boxes| == |p.boxes|
    ensures forall i :: 0 <= i < |p.boxes| ==>
      r.boxes[i].name == p.boxes[i].name && (r.boxes[i].checked <==> p.boxes[i].name in Catalogue.CommonFields)
    ensures LineItemsBox(p.boxes).Some? ==> r.lineItemsVisible && r.extractEnabled == (r.files != [])
    ensures LineItemsBox(p.boxes).None? ==>
      r.lineItemsVisible == p.lineItemsVisible && r.extractEnabled == p.extractEnabled
    ensures r.(boxes := p.boxes, lineItemsVisible := p.lineItemsVisible, extractEnabled := p.extractEnabled) == p
  {
    Catalogue.LineItemsListed();
    var r := SelectAllOf(p, Catalogue.CommonFields);
    var k := LineItemsBox(p.boxes);
    assert k.Some? ==> r.boxes[k.value].checked;
    r
  }

  /** On a panel whose boxes are the catalogue in order, "select all"
      selects the whole catalogue, in catalogue order. */
  lemma SelectAllOnCatalogue(p: Page)
    requires |p.boxes| == |Catalogue.CommonFields|
    requires forall i :: 0 <= i < |p.boxes| ==> p.boxes[i].name == Catalogue.CommonFields[i]
    ensures SelectedFields(SelectAll(p).boxes) == Catalogue.CommonFields
  {
    var q := SelectAll(p);
    SelectedFieldsAllChecked(q.boxes);
  }

  /* ---------- submission ---------- */

  /** The multipart request: every listed file and the selected field ids. */
  datatype Request = Request(files: seq<File>, fields: seq<string>)

  /** What came back: an HTTP response with its `ok` flag and parsed body, or
      a thrown error (network failure or unparsable body) with its message. */
  datatype Outcome = Response(ok: bool, body: Json) | Thrown(message: string)

  /** The notification shown after a cycle. `count` is the value of
      `results.length` (None prints as "undefined"); a failure carries the
      error's message, or None for the browser's own TypeError text. */
  datatype Notice = Processed(count: Option<Json>) | ProcessingFailed(message: Option<string>)

  /** Clicking the extract button. A disabled button receives no click, and
      an empty list returns at once; otherwise the button is disabled, the
      progress bar shown, and one request sent. */
  function ClickExtract(p: Page): (r: (Page, Option<Request>))
    ensures r.1.Some? <==> p.extractEnabled && p.files != []
    ensures r.1.Some? ==> r.1.value.files == p.files && r.1.value.fields == SelectedFields(p.boxes)
    ensures r.1.Some? ==> !r.0.extractEnabled && r.0.progressVisible
    ensures r.1.None? ==> r.0 == p
    ensures r.0.(extractEnabled := p.extractEnabled, progressVisible := p.progressVisible) == p
  {
    if !p.extractEnabled || |p.files| == 0 then (p, None)
    else (p.(extractEnabled := false, progressVisible := true), Some(Request(p.files, SelectedFields(p.boxes))))
  }

  /** A character above U+FFFF takes two UTF-16 code units (a surrogate
      pair), any other one. */
  function CodeUnits(c: char): nat
  {
    if c as int > 0xFFFF then 2 else 1
  }

  /** JavaScript's `length` of a string: its count of UTF-16 code units. */
  function Utf16Length(s: string): (n: nat)
    ensures |s| <= n <= 2 * |s|
  {
    if s == [] then 0 else CodeUnits(s[0]) + Utf16Length(s[1..])
  }

  lemma {:induction false} Utf16LengthAppend(a: string, b: string)
    ensures Utf16Length(a + b) == Utf16Length(a) + Utf16Length(b)
  {
    if a != [] {
      assert (a + b)[1..] == a[1..] + b;
      Utf16LengthAppend(a[1..], b);
    } else {
      assert a + b == b;
    }
  }

  /** The code-unit count equals the character count exactly when no
      character lies above U+FFFF. */
  lemma {:induction false} Utf16LengthIsLengthIff(s: string)
    ensures Utf16Length(s) == |s| <==> forall i :: 0 <= i < |s| ==> s[i] as int <= 0xFFFF
  {
    if s != [] {
      Utf16LengthIsLengthIff(s[1..]);
      assert forall i :: 1 <= i < |s| ==> s[i] == s[1..][i - 1];
    }
  }

  /** JavaScript `results.length` of a non-null parsed body: the length of
      an array or string, an object's own `length` member whatever its
      value, and `undefined` (None) otherwise. */
  function LengthOf(j: Json): (r: Option<Json>)
    ensures j.Arr? ==> r == Some(Num(|j.items|))
    ensures j.Str? ==> r == Some(Num(Utf16Length(j.s)))
    ensures j.Obj? ==> r == Prop(j, "length")
    ensures j.Null? || j.Bool? || j.Num? ==> r.None?
  {
    match j
    case Arr(items) => Some(Num(|items|))
    case Str(s) => Some(Num(Utf16Length(s)))
    case Obj(_) => Prop(j, "length")
    case _ => None
  }

  /** The end of a cycle. A failed response or thrown error leaves the
      results as they were and reports the failure; a good response is
      rendered and counted (a `null` body renders the placeholder and then
      throws on `.length`). Either way the button comes back enabled and the
      progress bar hidden. */
  function CompleteExtract(p: Page, outcome: Outcome): (r: (Page, Notice))
    ensures r.0.extractEnabled && !r.0.progressVisible
    ensures !(outcome.Response? && outcome.ok) ==> r.0.results == p.results && r.1.ProcessingFailed?
    ensures outcome.Thrown? ==> r.1 == ProcessingFailed(Some(outcome.message))
    ensures outcome.Response? && outcome.ok ==> r.0.results == ResultsView.Display(outcome.body)
    ensures outcome.Response? && !outcome.ok ==> r.1 == ProcessingFailed(Some("Server error"))
    ensures outcome.Response? && outcome.ok && outcome.body == Null ==> r.1 == ProcessingFailed(None)
    ensures outcome.Response? && outcome.ok && outcome.body != Null ==> r.1 == Processed(LengthOf(outcome.body))
    ensures r.0.(extractEnabled := p.extractEnabled, progressVisible := p.progressVisible, results := p.results) == p
  {
    var done := p.(extractEnabled := true, progressVisible := false);
    match outcome
    case Thrown(msg) => (done, ProcessingFailed(Some(msg)))
    case Response(ok, body) =>
      if !ok then (done, ProcessingFailed(Some("Server error")))
      else
        var shown := done.(results := ResultsView.Display(body));
        if body == Null then (shown, ProcessingFailed(None))
        else (shown, Processed(LengthOf(body)))
  }

  /** A second click on the just-disabled button sends nothing. */
  lemma SecondClickSendsNothing(p: Page)
    requires ClickExtract(p).1.Some?
    ensures ClickExtract(ClickExtract(p).0).1.None?
  {
  }

  /** The button does not stay off while a request is in flight: ticking a
      further box re-evaluates it without looking at the request, so a second
      request can start before the first completes. */
  lemma CheckboxChangeReenablesInFlight(p: Page, j: nat)
    requires ClickExtract(p).1.Some?
    requires j < |p.boxes| && !p.boxes[j].checked
    ensures var q := SetCheckbox(ClickExtract(p).0, j, true);
      q.progressVisible && ClickExtract(q).1.Some?
  {
    var q := SetCheckbox(ClickExtract(p).0, j, true);
    assert q.boxes[j].checked;
  }

  /** `updateExtractButtonState` as evidently intended: the button stays off
      while a request is in flight (the progress bar is shown exactly then). */
  function UpdateExtractButtonGuarded(p: Page): (r: Page)
    ensures r.extractEnabled <==> Ready(p) && !p.progressVisible
    ensures r.(extractEnabled := p.extractEnabled) == p
  {
    p.(extractEnabled := Ready(p) && !p.progressVisible)
  }

  /** With the guard, no handler that ends by re-evaluating the button can
      let a second request start while one is in flight. */
  lemma GuardedButtonStaysOffInFlight(q: Page)
    requires q.progressVisible
    ensures ClickExtract(UpdateExtractButtonGuarded(q)).1.None?
  {
  }

  /** Outside a request the guarded button behaves as the code's. */
  lemma GuardedAgreesWhenIdle(p: Page)
    requires !p.progressVisible
    ensures UpdateExtractButtonGuarded(p) == UpdateExtractButton(p)
  {
  }

  /** Clicking with an empty list does nothing, even if the button was left
      enabled by a rejected batch. */
  lemma ClickWithNoFilesDoesNothing(p: Page)
    requires p.files == []
    ensures ClickExtract(p) == (p, None)
  {
  }

  /** A button left enabled by an earlier state survives a rejected batch
      that emptied the list: the flag is stale, and only the guard in the
      click handler keeps an empty request from being sent. */
  lemma StaleButtonAfterRejectedBatch(p: Page, bad: File)
    requires p.extractEnabled && !p.inputMultiple && !IsValidType(bad)
    ensures HandleFiles(p, [bad]).extractEnabled && HandleFiles(p, [bad]).files == []
    ensures ClickExtract(HandleFiles(p, [bad])).1.None?
  {
  }

  /** A successful cycle with N non-null results shows N cards, one per
      result in order, each in its Structured tab when it is not an error. */
  lemma SuccessfulCycleShowsOneCardPerResult(p: Page, items: seq<Json>)
    requires |items| > 0 && Null !in items
    ensures var r := CompleteExtract(p, Response(true, Arr(items)));
      && r.1 == Processed(Some(Num(|items|)))
      && r.0.results.Cards?
      && |r.0.results.cards| == |items|
      && forall i :: 0 <= i < |items| ==>
           (r.0.results.cards[i].SuccessCard? ==> r.0.results.cards[i].tabs == ResultsView.InitialTabs)
  {
    ResultsView.DisplayOneCardPerResult(items);
  }
}

=== FILE: invoice_processor.dfy ===
/** The prompt builder of the older back end: per-field prompt lines, the
    JSON answer template, the text and vision prompts, the dispatch from
    file extension to file type, and the batch loop that turns a failing
    file into an error record. */
module InvoiceProcessor {
  import opened Results
  import opened Strings
  import Catalogue

  /** `InvoiceProcessingConfig`. */
  datatype Config = Config(fields: seq<string>, outputLanguage: string, outputFormat: string, includeLineItems: bool)

  /** An `InvoiceProcessor` instance: the field list and description table
      its constructor sets up. */
  datatype Processor = Processor(commonFields: seq<string>, fieldDescriptions: map<string, string>)

  /** `InvoiceProcessor()`: every common field has a description. */
  function NewProcessor(): (p: Processor)
    ensures |p.commonFields| == 11
    ensures forall f :: f in p.commonFields ==> f in p.fieldDescriptions
    ensures p.fieldDescriptions.Keys == set f | f in p.commonFields
  {
    Processor(Catalogue.CommonFields, Catalogue.FieldDescriptions())
  }

  /* ---------- the field list ---------- */

  /** The description of a field: the table entry, or a generic request. */
  function Describe(proc: Processor, field: string): string
  {
    if field in proc.fieldDescriptions then proc.fieldDescriptions[field] else "Extract " + field + " from the invoice"
  }

  /** A new processor describes a catalogue field by its table entry and any
      other field by a generic request naming it. */
  lemma DescribeNewProcessor(field: string)
    ensures field in Catalogue.CommonFields ==>
      Describe(NewProcessor(), field) == Catalogue.FieldDescriptions()[field]
    ensures field !in Catalogue.CommonFields ==>
      Describe(NewProcessor(), field) == "Extract " + field + " from the invoice"
  {
  }

  function FieldLine(proc: Processor, field: string): string
  {
    "- " + field + ": " + Describe(proc, field)
  }

  /** The lines of the REQUIRED FIELDS section, one per configured field. */
  function FieldLines(proc: Processor, fields: seq<string>): (r: seq<string>)
    ensures |r| == |fields|
    ensures forall i :: 0 <= i < |fields| ==> r[i] == "- " + fields[i] + ": " + Describe(proc, fields[i])
  {
    seq(|fields|, i requires 0 <= i < |fields| => FieldLine(proc, fields[i]))
  }

  function FieldList(proc: Processor, fields: seq<string>): string
  {
    Join("\n", FieldLines(proc, fields))
  }

  /** Adding a field adds exactly one line, after the existing ones. */
  lemma FieldListAppend(proc: Processor, fields: seq<string>, field: string)
    requires |fields| >= 1
    ensures FieldList(proc, fields + [field]) == FieldList(proc, fields) + "\n" + FieldLine(proc, field)
  {
    assert FieldLines(proc, fields + [field]) == FieldLines(proc, fields) + [FieldLine(proc, field)];
    JoinAppend("\n", FieldLines(proc, fields), [FieldLine(proc, field)]);
  }

  /* ---------- the JSON answer template ---------- */

  /** How `_generate_json_structure` classifies a field. */
  datatype FieldKind = LineItemsKind | AmountKind | DateKind | QuantityKind | OtherKind

  function Classify(field: string): (k: FieldKind)
    ensures k == LineItemsKind <==> field == "line_items"
    ensures k == AmountKind <==> field in {"total_amount", "tax_amount", "item_unit_price", "item_total"}
    ensures k == DateKind <==> field in {"invoice_date", "due_date"}
    ensures k == QuantityKind <==> field == "item_quantity"
  {
    if field == "line_items" then LineItemsKind
    else if field in ["total_amount", "tax_amount", "item_unit_price", "item_total"] then AmountKind
    else if field in ["invoice_date", "due_date"] then DateKind
    else if field == "item_quantity" then QuantityKind
    else OtherKind
  }

  /** The template value for each kind, written once. */
  const LineItemsValue: string :=
    "[\n        {\n            \"description\": \"item description\",\n            \"quantity\": \"quantity\",\n            \"unit_price\": \"price per unit\",\n            \"total\": \"total amount\"\n        }\n    ]"

  function KindValue(k: FieldKind): string
  {
    match k
    case LineItemsKind => LineItemsValue
    case AmountKind => "\"amount with currency\""
    case DateKind => "\"YYYY-MM-DD\""
    case QuantityKind => "\"numeric quantity\""
    case OtherKind => "\"extracted value\""
  }

  /** One entry of the template: the quoted field name, then the value its
      classification calls for. */
  function TemplateEntry(field: string): string
  {
    "\"" + field + "\": " + KindValue(Classify(field))
  }

  const EntrySeparator: string := ",\n        "

  function JsonStructure(fields: seq<string>): string
  {
    Join(EntrySeparator, seq(|fields|, i requires 0 <= i < |fields| => TemplateEntry(fields[i])))
  }

  /** One entry per field, in input order: appending a field appends its
      entry after one separator; a single field is its entry alone. */
  lemma JsonStructureAppend(fields: seq<string>, field: string)
    requires |fields| >= 1
    ensures JsonStructure(fields + [field]) == JsonStructure(fields) + EntrySeparator + TemplateEntry(field)
    ensures JsonStructure([field]) == TemplateEntry(field)
    ensures JsonStructure([]) == ""
  {
    var es := seq(|fields|, i requires 0 <= i < |fields| => TemplateEntry(fields[i]));
    assert seq(|fields + [field]|, i requires 0 <= i < |fields + [field]| => TemplateEntry((fields + [field])[i]))
        == es + [TemplateEntry(field)];
    JoinAppend(EntrySeparator, es, [TemplateEntry(field)]);
  }

  /* ---------- the text prompt ---------- */

  const PromptHead: string :=
    "You are an expert invoice data extraction system. Analyze the provided invoice document and extract the following information:\n\nREQUIRED FIELDS:\n"

  const PromptGuidelines: string :=
    "\n\nEXTRACTION GUIDELINES:\n"
    + "1. Extract information exactly as it appears in the document\n"
    + "2. For dates, use the format found in the document or convert to YYYY-MM-DD if unclear\n"
    + "3. For monetary amounts, include currency symbols and preserve decimal places\n"
    + "4. For line items, extract all available items with their details\n"
    + "5. If a field is not found, use null or empty string\n"
    + "6. Be precise and accurate - double-check all extracted values\n"
    + "\nOUTPUT FORMAT:\n"
    + "Return the extracted data as a JSON object with the following structure:\n"
    + "{\n    \"extracted_fields\": {\n        "

  const PromptOutputTail: string :=
    "\n    },\n"
    + "    \"confidence_score\": \"percentage of confidence in extraction accuracy\",\n"
    + "    \"processing_notes\": \"any relevant notes about the extraction process\"\n"
    + "}\n\nLANGUAGE: Extract and return all text in "

  const PromptEnd: string :=
    "\n\nIMPORTANT: Only return the JSON object, no additional text or explanations."

  /** The fixed text of the extraction prompt around its three variable
      parts (field list, JSON template, language). */
  datatype PromptText = PromptText(head: string, guidelines: string, outputTail: string, end: string)

  const SourcePromptText: PromptText := PromptText(PromptHead, PromptGuidelines, PromptOutputTail, PromptEnd)

  /** The prompt with `text` as its fixed parts. */
  function FillPrompt(proc: Processor, text: PromptText, config: Config): string
  {
    text.head + FieldList(proc, config.fields) + text.guidelines + JsonStructure(config.fields)
      + text.outputTail + config.outputLanguage + text.end
  }

  /** Where the variable parts sit: the field list right after the head, the
      JSON template right after the guidelines, and the language just before
      the closing instruction. */
  lemma PromptLayout(proc: Processor, text: PromptText, config: Config)
    ensures var r := FillPrompt(proc, text, config);
      var fl := FieldList(proc, config.fields);
      var js := JsonStructure(config.fields);
      var a := |text.head|;
      var b := a + |fl|;
      var c := b + |text.guidelines|;
      var d := c + |js|;
      var e := d + |text.outputTail|;
      && |r| == e + |config.outputLanguage| + |text.end|
      && r[..a] == text.head
      && r[a..b] == fl
      && r[c..d] == js
      && r[e..e + |config.outputLanguage|] == config.outputLanguage
  {
    ConcatSlices(text.head, FieldList(proc, config.fields), text.guidelines, JsonStructure(config.fields),
                 text.outputTail, config.outputLanguage, text.end);
  }

  /** `generate_extraction_prompt`. The content and file-type arguments are
      accepted and ignored. */
  function ExtractionPrompt(proc: Processor, config: Config, fileContent: Option<string>, fileType: string): string
  {
    FillPrompt(proc, SourcePromptText, config)
  }

  /** The prompt depends on the configured fields and language only. */
  lemma PromptDependsOnFieldsAndLanguage(proc: Processor, c1: Config, c2: Config,
                                         x1: Option<string>, x2: Option<string>, t1: string, t2: string)
    requires c1.fields == c2.fields && c1.outputLanguage == c2.outputLanguage
    ensures ExtractionPrompt(proc, c1, x1, t1) == ExtractionPrompt(proc, c2, x2, t2)
  {
  }

  /* ---------- the vision prompt ---------- */

  datatype Part = TextPart(text: string) | ImageUrlPart(url: string)
  datatype Message = Message(role: string, content: seq<Part>)
  datatype VisionRequest = VisionRequest(messages: seq<Message>)

  const DataUrlPrefix: string := "data:image/jpeg;base64,"

  /** `create_vision_prompt`: one user message, the text prompt first and the
      image as a JPEG data URL second. */
  function CreateVisionPrompt(proc: Processor, config: Config, imageBase64: string): (r: VisionRequest)
    ensures |r.messages| == 1 && r.messages[0].role == "user"
    ensures |r.messages[0].content| == 2
    ensures r.messages[0].content[0] == TextPart(ExtractionPrompt(proc, config, None, "image"))
    ensures r.messages[0].content[1].ImageUrlPart?
    ensures ImagePayload(r.messages[0].content[1].url) == Some(imageBase64)
  {
    var url := DataUrlPrefix + imageBase64;
    assert url[..|DataUrlPrefix|] == DataUrlPrefix;
    VisionRequest([Message("user", [TextPart(ExtractionPrompt(proc, config, None, "image")), ImageUrlPart(url)])])
  }

  /** The base64 payload of a JPEG data URL, if it is one. */
  function ImagePayload(url: string): (r: Option<string>)
    ensures r.Some? <==> DataUrlPrefix <= url
    ensures r.Some? ==> url == DataUrlPrefix + r.value
  {
    if DataUrlPrefix <= url then Some(url[|DataUrlPrefix|..]) else None
  }

  /* ---------- dispatch on the file extension ---------- */

  datatype FileType = Pdf | Image

  /** `file_path.lower().split('.')[-1]`. */
  function Extension(path: string): (ext: string)
    ensures '.' !in ext
    ensures |ext| <= |path| && Lower(path)[|path| - |ext|..] == ext
    ensures |ext| < |path| ==> path[|path| - |ext| - 1] == '.'
    ensures '.' !in path ==> ext == Lower(path)
  {
    AfterLastShape(Lower(path), '.');
    AfterLast(Lower(path), '.')
  }

  /** The type `process_single_invoice` assigns, or the ValueError's message. */
  function Dispatch(path: string): (r: Result<FileType, string>)
    ensures r == Success(Pdf) <==> Extension(path) == "pdf"
    ensures r == Success(Image) <==> Extension(path) in {"jpg", "jpeg", "png"}
    ensures r.Failure? <==> Extension(path) !in {"pdf", "jpg", "jpeg", "png"}
    ensures r.Failure? ==> r.error == "Unsupported file type: " + Extension(path)
  {
    var ext := Extension(path);
    if ext == "pdf" then Success(Pdf)
    else if ext in ["jpg", "jpeg", "png"] then Success(Image)
    else Failure("Unsupported file type: " + ext)
  }

  /** Upper-case extensions are accepted. */
  lemma DispatchUpperCasePdf()
    ensures Dispatch("scan.PDF") == Success(Pdf)
  {
    assert Lower("scan.PDF") == "scan.pdf";
    SplitNoSeparator("pdf", '.');
    SplitCons("scan", '.', "pdf");
  }

  /* ---------- one file and a batch ---------- */

  /** The prompt handed to the model: plain text for a PDF, a vision request
      for an image. */
  datatype Prompt = TextPrompt(text: string) | VisionPrompt(request: VisionRequest)

  /** The record `process_single_invoice` returns. */
  datatype Processed = Processed(filePath: string, config: Config, fileType: FileType, content: string, prompt: Prompt)

  /** The file's content and prompt for a dispatched type: the PDF's text
      and a text prompt, or the image's base64 and a vision prompt. */
  function ContentAndPrompt(proc: Processor, path: string, fileType: FileType, config: Config,
                            readPdf: string -> string, readImage: string -> string): (string, Prompt)
  {
    match fileType
    case Pdf =>
      var text := readPdf(path);
      (text, TextPrompt(ExtractionPrompt(proc, config, Some(text), "pdf")))
    case Image =>
      var b64 := readImage(path);
      (b64, VisionPrompt(CreateVisionPrompt(proc, config, b64)))
  }

  /** `process_single_invoice`. Reading the file is outside the model: `readPdf`
      and `readImage` stand for the PDF text extraction and the base64
      encoding, both of which report their own failures as text. */
  function ProcessSingle(proc: Processor, path: string, config: Config, readPdf: string -> string, readImage: string -> string)
    : (r: Result<Processed, string>)
    ensures r.Failure? <==> Extension(path) !in {"pdf", "jpg", "jpeg", "png"}
    ensures r.Failure? ==> r.error == "Unsupported file type: " + Extension(path)
    ensures r.Success? ==> r.value.filePath == path && r.value.config == config
    ensures r.Success? ==> (r.value.fileType == Pdf <==> Extension(path) == "pdf")
    ensures r.Success? ==>
      (r.value.content, r.value.prompt) == ContentAndPrompt(proc, path, r.value.fileType, config, readPdf, readImage)
  {
    match Dispatch(path)
    case Failure(e) => Failure(e)
    case Success(t) =>
      var cp := ContentAndPrompt(proc, path, t, config, readPdf, readImage);
      Success(Processed(path, config, t, cp.0, cp.1))
  }

  /** One entry of the batch result. */
  datatype BatchRecord = Done(record: Processed) | Errored(filePath: string, error: string)

  /** The record the batch keeps for one path: the processed record, or the
      path with the exception's message. */
  function BatchEntry(proc: Processor, path: string, config: Config, readPdf: string -> string, readImage: string -> string)
    : (r: BatchRecord)
    ensures r.Errored? <==> Dispatch(path).Failure?
    ensures r.Errored? ==> r == Errored(path, "Unsupported file type: " + Extension(path))
    ensures r.Done? ==> r.record.filePath == path && Success(r.record) == ProcessSingle(proc, path, config, readPdf, readImage)
  {
    match ProcessSingle(proc, path, config, readPdf, readImage)
    case Success(p) => Done(p)
    case Failure(e) => Errored(path, e)
  }

  /** The loop of `process_invoice_batch`, with the work on one path as a
      parameter: one record per path, in order, and the loop goes on whatever
      the record of a path is. */
  method RunBatch(paths: seq<string>, entry: string -> BatchRecord) returns (results: seq<BatchRecord>)
    ensures |results| == |paths|
    ensures forall i :: 0 <= i < |paths| ==> results[i] == entry(paths[i])
  {
    results := [];
    for k := 0 to |paths|
      invariant |results| == k
      invariant forall i :: 0 <= i < k ==> results[i] == entry(paths[i])
    {
      results := results + [entry(paths[k])];
    }
  }

  /** `process_invoice_batch`: a fresh processor runs the batch; a path whose
      processing raises becomes an error record and the batch goes on. */
  method ProcessBatch(paths: seq<string>, config: Config, readPdf: string -> string, readImage: string -> string)
    returns (results: seq<BatchRecord>)
    ensures |results| == |paths|
    ensures forall i :: 0 <= i < |paths| ==> results[i] == BatchEntry(NewProcessor(), paths[i], config, readPdf, readImage)
  {
    var proc := NewProcessor();
    results := RunBatch(paths, p => BatchEntry(proc, p, config, readPdf, readImage));
  }
}

=== FILE: json.dfy ===
/** The JSON values exchanged between the front end and the back ends, with
    JavaScript's reading of them: truthiness and property access. Numbers are
    integers here (see the README). */
module Json {
  import opened Results

  datatype Json =
    | Null
    | Bool(b: bool)
    | Num(n: int)
    | Str(s: string)
    | Arr(items: seq<Json>)
    | Obj(members: map<string, Json>)

  /** JavaScript truthiness: `null`, `false`, `0` and `""` are falsy. */
  predicate Truthy(j: Json)
  {
    match j
    case Null => false
    case Bool(b) => b
    case Num(n) => n != 0
    case Str(s) => s != ""
    case Arr(_) => true
    case Obj(_) => true
  }

  /** `j.key` for a non-null value: the member of an object, `undefined`
      (None) for a missing member or a primitive. */
  function Prop(j: Json, key: string): Option<Json>
  {
    if j.Obj? && key in j.members then Some(j.members[key]) else None
  }

  /** Truthiness of a possibly-undefined value (`undefined` is falsy). */
  predicate TruthyOpt(o: Option<Json>)
  {
    o.Some? && Truthy(o.value)
  }
}

=== FILE: relay.dfy ===
/** The current FastAPI back end: field ids become title-cased labels, one
    fixed prompt sentence is built from them, and every uploaded file is
    forwarded with that prompt, giving exactly one result per file. */
module Relay {
  import opened Results
  import opened Strings
  import opened Json
  import ResultsView

  /** `f.replace("_", " ").title()`. */
  function Label(field: string): (r: string)
    ensures |r| == |field|
    ensures '_' !in r
    ensures forall i :: 0 <= i < |field| && !IsLetter(field[i]) ==>
      r[i] == (if field[i] == '_' then ' ' else field[i])
    ensures forall i :: 0 <= i < |field| && IsLetter(field[i]) && (i == 0 || !IsLetter(field[i - 1])) ==>
      r[i] == ToUpperChar(field[i])
    ensures forall i :: 0 <= i < |field| && IsLetter(field[i]) && i > 0 && IsLetter(field[i - 1]) ==>
      r[i] == ToLowerChar(field[i])
  {
    var spaced := ReplaceChar(field, '_', ' ');
    TitlePointwise(spaced);
    Title(spaced)
  }

  predicate AllLetters(w: string)
  {
    forall i :: 0 <= i < |w| ==> IsLetter(w[i])
  }

  /** A lower-case word is labelled by capitalising its first letter. */
  lemma LabelOfLowerWord(w: string)
    requires w != []
    requires forall i :: 0 <= i < |w| ==> IsLower(w[i])
    ensures Label(w) == [ToUpperChar(w[0])] + w[1..]
  {
    var r := Label(w);
    forall i | 1 <= i < |w|
      ensures r[i] == w[i]
    {
      assert IsLetter(w[i]) && IsLetter(w[i - 1]);
    }
  }

  /** Two words joined by `_` are labelled word by word, joined by a space:
      `due_date` becomes `Due Date`. */
  lemma LabelJoinsWords(a: string, b: string)
    requires a != [] && b != []
    requires AllLetters(a) && AllLetters(b)
    ensures Label(a + "_" + b) == Label(a) + " " + Label(b)
  {
    var f := a + "_" + b;
    var r := Label(f);
    var la := Label(a);
    var lb := Label(b);
    assert f[|a|] == '_';
    forall i | 0 <= i < |a|
      ensures r[i] == la[i]
    {
      assert f[i] == a[i];
      if i > 0 { assert f[i - 1] == a[i - 1]; }
    }
    forall j | 0 <= j < |b|
      ensures r[|a| + 1 + j] == lb[j]
    {
      assert f[|a| + 1 + j] == b[j];
      if j > 0 { assert f[|a| + j] == b[j - 1]; }
    }
    assert r == la + " " + lb;
  }

  function Labels(fields: seq<string>): (r: seq<string>)
    ensures |r| == |fields|
    ensures forall i :: 0 <= i < |fields| ==> r[i] == Label(fields[i])
  {
    seq(|fields|, i requires 0 <= i < |fields| => Label(fields[i]))
  }

  const PromptLead: string := "Extract the following fields from the invoice: "

  /** The prompt sentence: the lead, the labels joined by ", ", a full stop. */
  function PromptFor(fields: seq<string>): (r: string)
    ensures |r| == |PromptLead| + |Join(", ", Labels(fields))| + 1
    ensures r[..|PromptLead|] == PromptLead
    ensures r[|PromptLead|..|r| - 1] == Join(", ", Labels(fields))
    ensures r[|r| - 1] == '.'
  {
    var body := Join(", ", Labels(fields));
    var r := PromptLead + body + ".";
    assert r[|PromptLead|..|r| - 1] == body;
    r
  }

  /** One more field adds ", " and its label before the full stop. */
  lemma PromptForAppend(fields: seq<string>, field: string)
    requires |fields| >= 1
    ensures Join(", ", Labels(fields + [field])) == Join(", ", Labels(fields)) + ", " + Label(field)
  {
    assert Labels(fields + [field]) == Labels(fields) + [Label(field)];
    JoinAppend(", ", Labels(fields), [Label(field)]);
  }

  /** An uploaded file: its name and its bytes. */
  datatype Upload = Upload(fileName: string, content: seq<bv8>)

  /** What forwarding one file with the prompt returned: the parsed JSON
      answer, or the message of the exception raised (transport error, bad
      status, bad JSON). The whole file is sent, so two uploads of the same
      name may get different answers. */
  type Forward = (Upload, string) -> Result<Json, string>

  /** The record put in place of a failed forward. */
  function ErrorRecord(fileName: string, error: string, prompt: string): (r: Json)
    ensures Prop(r, "fileName") == Some(Str(fileName))
    ensures Prop(r, "error") == Some(Str(error))
    ensures Prop(r, "promptUsed") == Some(Str(prompt))
  {
    Obj(map["fileName" := Str(fileName), "error" := Str(error), "promptUsed" := Str(prompt)])
  }

  /** The result for one file. */
  function ResultFor(file: Upload, prompt: string, forward: Forward): Json
  {
    match forward(file, prompt)
    case Success(data) => data
    case Failure(e) => ErrorRecord(file.fileName, e, prompt)
  }

  /** `process`: the prompt is built once from the field ids, then every
      file, in upload order, is forwarded with it and contributes exactly one
      result: the answer, or an error record naming the file. */
  method Process(files: seq<Upload>, fields: seq<string>, forward: Forward)
    returns (prompt: string, results: seq<Json>)
    ensures prompt == PromptFor(fields)
    ensures |results| == |files|
    ensures forall i :: 0 <= i < |files| && forward(files[i], prompt).Success? ==>
      results[i] == forward(files[i], prompt).value
    ensures forall i :: 0 <= i < |files| && forward(files[i], prompt).Failure? ==>
      results[i] == ErrorRecord(files[i].fileName, forward(files[i], prompt).error, prompt)
  {
    prompt := PromptFor(fields);
    results := [];
    var k := 0;
    while k < |files|
      invariant k <= |files|
      invariant |results| == k
      invariant forall i :: 0 <= i < k ==> results[i] == ResultFor(files[i], prompt, forward)
    {
      results := results + [ResultFor(files[k], prompt, forward)];
      k := k + 1;
    }
  }

  /** How the page shows a failed forward: an error card when the message is
      non-empty; an empty message is falsy, so the page draws a success card
      whose Prompt tab shows the prompt. */
  lemma ErrorRecordOnThePage(fileName: string, error: string, prompt: string)
    requires prompt != ""
    ensures ResultsView.CreateCard(ErrorRecord(fileName, error, prompt)).ErrorCard? <==> error != ""
    ensures error == "" ==> ResultsView.CreateCard(ErrorRecord(fileName, error, prompt)).prompt == Str(prompt)
  {
  }
}

=== FILE: results.dfy ===
/** Option and Result values standing in for JavaScript's `undefined` and for
    the Python exceptions the modelled code raises or catches. */
module Results {

  datatype Option<+T> = None | Some(value: T) {
    /** The value, or `default` when absent. */
    function GetOr(default: T): T {
      match this
      case Some(v) => v
      case None => default
    }
  }

  datatype Result<+R, +E> = Success(value: R) | Failure(error: E)
}

=== FILE: results_view.dfy ===
/** The results area of the browser page: one card per extraction result,
    error cards versus three-tab success cards, tab switching, and the name
    under which a card's extracted fields are downloaded. */
module ResultsView {
  import opened Results
  import opened Json
  import opened Strings

  datatype Tab = Structured | Raw | Prompt

  const AllTabs: set<Tab> := {Structured, Raw, Prompt}

  /** The tabs of one card carrying the `active` class: buttons and panes. */
  datatype Tabs = Tabs(buttons: set<Tab>, contents: set<Tab>)

  /** Exactly one tab is active, and its button and pane agree. */
  predicate OneActive(ts: Tabs)
  {
    exists t :: ts == Tabs({t}, {t})
  }

  lemma TabInAllTabs()
    ensures forall t: Tab :: t in AllTabs
  {
    forall t: Tab
      ensures t in AllTabs
    {
      if t.Structured? {} else if t.Raw? {} else {}
    }
  }

  const InitialTabs: Tabs := Tabs({Structured}, {Structured})

  /** A rendered card. Property values are kept as JSON; `None` is
      JavaScript's `undefined`. */
  datatype Card =
    | ErrorCard(fileName: Option<Json>, error: Json)
    | SuccessCard(fileName: Option<Json>, structured: Option<Json>, raw: Option<Json>,
                  prompt: Json, tabs: Tabs)

  /** The results container: never shown, the "No results" placeholder, or
      the cards appended before rendering stopped (`stopped` records that an
      exception cut rendering short and the page reported it). */
  datatype View = Hidden | Placeholder | Cards(cards: seq<Card>, stopped: bool)

  /** `createResultCard` for a non-null result. */
  function CreateCard(result: Json): (c: Card)
    requires result != Null
    ensures c.ErrorCard? <==> TruthyOpt(Prop(result, "error"))
    ensures c.fileName == Prop(result, "fileName")
    ensures c.ErrorCard? ==> c.error == Prop(result, "error").value
    ensures c.SuccessCard? ==> c.tabs == InitialTabs && OneActive(c.tabs)
    ensures c.SuccessCard? ==> Truthy(c.prompt)
    ensures c.SuccessCard? && TruthyOpt(Prop(result, "promptUsed")) ==> c.prompt == Prop(result, "promptUsed").value
    ensures c.SuccessCard? && !TruthyOpt(Prop(result, "promptUsed")) ==> c.prompt == Str("N/A")
  {
    var err := Prop(result, "error");
    if TruthyOpt(err) then
      ErrorCard(Prop(result, "fileName"), err.value)
    else
      var p := Prop(result, "promptUsed");
      SuccessCard(Prop(result, "fileName"), Prop(result, "extractedFields"), Prop(result, "rawResponse"),
                  if TruthyOpt(p) then p.value else Str("N/A"), InitialTabs)
  }

  /** The `forEach` over the results array: cards are appended in order until
      a `null` element makes property access throw. */
  function RenderAll(items: seq<Json>): (r: (seq<Card>, bool))
    ensures r.1 <==> Null in items
    ensures |r.0| <= |items|
    ensures !r.1 ==> |r.0| == |items|
    ensures r.1 ==> |r.0| < |items| && items[|r.0|] == Null
    ensures forall i :: 0 <= i < |r.0| ==> items[i] != Null && r.0[i] == CreateCard(items[i])
  {
    if items == [] then ([], false)
    else if items[0] == Null then ([], true)
    else
      var rest := RenderAll(items[1..]);
      ([CreateCard(items[0])] + rest.0, rest.1)
  }

  /** `displayResults(results)`. */
  function Display(results: Json): View
  {
    if !Truthy(results) || Prop(results, "length") == Some(Num(0)) then Placeholder
    else match results
      case Arr(items) =>
        if |items| == 0 then Placeholder
        else
          var r := RenderAll(items);
          Cards(r.0, r.1)
      case _ => Cards([], true)
  }

  /** A results array without nulls gives one card per result, in order, each
      an error card exactly when its `error` is truthy. */
  lemma DisplayOneCardPerResult(items: seq<Json>)
    requires |items| > 0 && Null !in items
    ensures Display(Arr(items)).Cards?
    ensures !Display(Arr(items)).stopped
    ensures |Display(Arr(items)).cards| == |items|
    ensures forall i :: 0 <= i < |items| ==>
      && Display(Arr(items)).cards[i] == CreateCard(items[i])
      && (Display(Arr(items)).cards[i].ErrorCard? <==> TruthyOpt(Prop(items[i], "error")))
  {
  }

  /** An empty or falsy response shows only the placeholder. */
  lemma DisplayEmpty(results: Json)
    requires !Truthy(results) || results == Arr([])
    ensures Display(results) == Placeholder
  {
  }

  /** A tab click inside a card: clear `active` everywhere, then mark the
      clicked button and its pane. Error cards have no tabs. */
  function ClickTab(c: Card, t: Tab): (r: Card)
    ensures c.ErrorCard? ==> r == c
    ensures c.SuccessCard? ==> r == c.(tabs := Tabs({t}, {t}))
    ensures r.SuccessCard? ==> OneActive(r.tabs) && t in r.tabs.buttons && t in r.tabs.contents
  {
    match c
    case ErrorCard(_, _) => c
    case SuccessCard(_, _, _, _, ts) =>
      var ts' := Tabs((ts.buttons - AllTabs) + {t}, (ts.contents - AllTabs) + {t});
      TabInAllTabs();
      assert ts.buttons - AllTabs == {} && ts.contents - AllTabs == {};
      assert ts' == Tabs({t}, {t});
      c.(tabs := ts')
  }

  function ClickTabs(c: Card, clicks: seq<Tab>): Card
    decreases |clicks|
  {
    if clicks == [] then c else ClickTabs(ClickTab(c, clicks[0]), clicks[1..])
  }

  /** After any sequence of tab clicks on a fresh success card exactly one
      tab is active: the last one clicked, or Structured if none was. */
  lemma {:induction false} ClickTabsLastWins(c: Card, clicks: seq<Tab>)
    requires c.SuccessCard? && OneActive(c.tabs)
    ensures ClickTabs(c, clicks).SuccessCard?
    ensures OneActive(ClickTabs(c, clicks).tabs)
    ensures clicks == [] ==> ClickTabs(c, clicks).tabs == c.tabs
    ensures clicks != [] ==> ClickTabs(c, clicks).tabs == Tabs({clicks[|clicks| - 1]}, {clicks[|clicks| - 1]})
    decreases |clicks|
  {
    if clicks != [] {
      var c' := ClickTab(c, clicks[0]);
      assert c'.tabs == Tabs({clicks[0]}, {clicks[0]});
      ClickTabsLastWins(c', clicks[1..]);
    }
  }

  /** A tab click on the `k`-th card of the results area. The click handlers
      are attached only after every card has been appended, so when rendering
      stopped on a `null` no card has them and the click changes nothing;
      likewise when there is no `k`-th card to click. */
  function ClickCardTab(v: View, k: nat, t: Tab): (r: View)
    ensures !v.Cards? || v.stopped || k >= |v.cards| ==> r == v
    ensures v.Cards? ==> r.Cards? && r.stopped == v.stopped && |r.cards| == |v.cards|
    ensures v.Cards? ==> forall i :: 0 <= i < |v.cards| && i != k ==> r.cards[i] == v.cards[i]
    ensures v.Cards? && !v.stopped && k < |v.cards| ==> r.cards[k] == ClickTab(v.cards[k], t)
  {
    if v.Cards? && !v.stopped && k < |v.cards| then v.(cards := v.cards[k := ClickTab(v.cards[k], t)])
    else v
  }

  /** A `null` among the results leaves the cards drawn before it without
      working tabs: no click changes the view. */
  lemma NullResultLeavesTabsDead(items: seq<Json>, k: nat, t: Tab)
    requires Null in items
    ensures Display(Arr(items)).Cards?
    ensures ClickCardTab(Display(Arr(items)), k, t) == Display(Arr(items))
  {
  }

  /** Without `null` results, clicking a tab of a success card makes that
      tab, and only it, active on that card. */
  lemma DisplayedTabsRespond(items: seq<Json>, k: nat, t: Tab)
    requires Null !in items && k < |items|
    requires !TruthyOpt(Prop(items[k], "error"))
    ensures ClickCardTab(Display(Arr(items)), k, t).cards[k].SuccessCard?
    ensures ClickCardTab(Display(Arr(items)), k, t).cards[k].tabs == Tabs({t}, {t})
  {
    DisplayOneCardPerResult(items);
  }

  /** The download name: the file name's text before its first '.', then
      `_extracted.json`. */
  function DownloadName(fileName: string): (r: string)
    ensures exists stem :: r == stem + "_extracted.json" && stem <= fileName && '.' !in stem &&
                           (|stem| < |fileName| ==> fileName[|stem|] == '.')
  {
    BeforeFirstShape(fileName, '.');
    BeforeFirst(fileName, '.') + "_extracted.json"
  }

  /** A name without a dot is used whole. */
  lemma DownloadNameNoDot(fileName: string)
    requires '.' !in fileName
    ensures DownloadName(fileName) == fileName + "_extracted.json"
  {
    BeforeFirstShape(fileName, '.');
  }
}

=== FILE: strings.dfy ===
/** Character-level string helpers shared by the front end and the two
    back ends: Python/JavaScript `split` on one character, `join`, the
    text before the first / after the last separator, and ASCII case
    mapping including Python's `str.title`. */
module Strings {

  /** Python `s.split(c)` (and JavaScript `s.split(c)`) for a one-character
      separator: always at least one piece, empty pieces kept. */
  function Split(s: string, c: char): (r: seq<string>)
    ensures |r| >= 1
    ensures |r| == 1 <==> c !in s
    ensures forall i :: 0 <= i < |r| ==> c !in r[i]
  {
    if s == [] then [""]
    else
      var rest := Split(s[1..], c);
      if s[0] == c then [""] + rest
      else [[s[0]] + rest[0]] + rest[1..]
  }

  /** Python `sep.join(xs)`. */
  function Join(sep: string, xs: seq<string>): string
  {
    if |xs| == 0 then ""
    else if |xs| == 1 then xs[0]
    else xs[0] + sep + Join(sep, xs[1..])
  }

  /** Joining the pieces of a split with the separator restores the string. */
  lemma {:induction false} JoinSplit(s: string, c: char)
    ensures Join([c], Split(s, c)) == s
  {
    if s != [] {
      var rest := Split(s[1..], c);
      JoinSplit(s[1..], c);
      if s[0] == c {
        assert Split(s, c) == [""] + rest;
        assert Join([c], [""] + rest) == "" + [c] + Join([c], rest);
        assert s == [c] + s[1..];
      } else {
        var head := [s[0]] + rest[0];
        assert Split(s, c) == [head] + rest[1..];
        if |rest| == 1 {
          assert Join([c], rest) == rest[0];
          assert Join([c], [head] + rest[1..]) == head;
        } else {
          assert rest == [rest[0]] + rest[1..];
          assert Join([c], rest) == rest[0] + [c] + Join([c], rest[1..]);
          assert Join([c], [head] + rest[1..]) == head + [c] + Join([c], rest[1..]);
        }
        assert s == [s[0]] + s[1..];
      }
    }
  }

  /** Splitting `x + [c] + rest` where `x` holds no separator yields `x` first. */
  lemma {:induction false} SplitCons(x: string, c: char, rest: string)
    requires c !in x
    ensures Split(x + [c] + rest, c) == [x] + Split(rest, c)
  {
    if x == [] {
      assert (x + [c] + rest)[1..] == rest;
    } else {
      var s := x + [c] + rest;
      assert s[0] == x[0];
      assert s[1..] == x[1..] + [c] + rest;
      SplitCons(x[1..], c, rest);
      assert [x[0]] + x[1..] == x;
    }
  }

  /** Splitting a string with no separator yields the string alone. */
  lemma {:induction false} SplitNoSeparator(s: string, c: char)
    requires c !in s
    ensures Split(s, c) == [s]
  {
    if s != [] {
      assert c !in s[1..];
      SplitNoSeparator(s[1..], c);
      assert [s[0]] + s[1..] == s;
    }
  }

  /** Splitting a join of separator-free pieces recovers the pieces. */
  lemma {:induction false} SplitJoin(xs: seq<string>, c: char)
    requires |xs| >= 1
    requires forall i :: 0 <= i < |xs| ==> c !in xs[i]
    ensures Split(Join([c], xs), c) == xs
  {
    if |xs| == 1 {
      SplitNoSeparator(xs[0], c);
    } else {
      SplitJoin(xs[1..], c);
      SplitCons(xs[0], c, Join([c], xs[1..]));
      assert xs == [xs[0]] + xs[1..];
    }
  }

  /** Only the empty string splits into the single empty piece. */
  lemma {:induction false} SplitIsEmptyPieceIff(s: string, c: char)
    ensures Split(s, c) == [""] <==> s == ""
  {
    if s != [] {
      var rest := Split(s[1..], c);
      if s[0] != c {
        assert |Split(s, c)[0]| >= 1;
      } else {
        assert |Split(s, c)| >= 2;
      }
    }
  }

  /** Joining a non-empty prefix list and a non-empty suffix list puts one
      separator between them. */
  lemma {:induction false} JoinAppend(sep: string, xs: seq<string>, ys: seq<string>)
    requires |xs| >= 1 && |ys| >= 1
    ensures Join(sep, xs + ys) == Join(sep, xs) + sep + Join(sep, ys)
  {
    if |xs| == 1 {
      assert (xs + ys)[1..] == ys;
    } else {
      assert (xs + ys)[1..] == xs[1..] + ys;
      JoinAppend(sep, xs[1..], ys);
    }
  }

  /** JavaScript `s.split(c)[0]`: the text before the first `c`, or all of `s`. */
  function BeforeFirst(s: string, c: char): string
  {
    Split(s, c)[0]
  }

  /** Python `s.split(c)[-1]`: the text after the last `c`, or all of `s`. */
  function AfterLast(s: string, c: char): string
  {
    var parts := Split(s, c);
    parts[|parts| - 1]
  }

  /** `BeforeFirst` is the longest separator-free prefix. */
  lemma {:induction false} BeforeFirstShape(s: string, c: char)
    ensures var p := BeforeFirst(s, c);
      && p <= s
      && c !in p
      && (|p| < |s| ==> s[|p|] == c)
      && (c !in s ==> p == s)
  {
    if s != [] {
      BeforeFirstShape(s[1..], c);
    }
  }

  /** `AfterLast` is the longest separator-free suffix. */
  lemma {:induction false} AfterLastShape(s: string, c: char)
    ensures var e := AfterLast(s, c);
      && |e| <= |s|
      && s[|s| - |e|..] == e
      && c !in e
      && (|e| < |s| ==> s[|s| - |e| - 1] == c)
      && (c !in s ==> e == s)
  {
    if s != [] {
      AfterLastShape(s[1..], c);
      var rest := Split(s[1..], c);
      if s[0] != c && |rest| == 1 {
        assert rest[0] == s[1..];
        assert AfterLast(s, c) == [s[0]] + rest[0];
        assert s == [s[0]] + s[1..];
      } else {
        assert AfterLast(s, c) == AfterLast(s[1..], c);
      }
    }
  }

  predicate IsUpper(ch: char) { 'A' <= ch <= 'Z' }
  predicate IsLower(ch: char) { 'a' <= ch <= 'z' }
  /** A cased character in the sense of Python `str.title` (ASCII letters). */
  predicate IsLetter(ch: char) { IsUpper(ch) || IsLower(ch) }

  function ToUpperChar(ch: char): (r: char)
    ensures IsLetter(ch) ==> IsUpper(r)
    ensures !IsLetter(ch) ==> r == ch
  {
    if IsLower(ch) then (ch as int - 32) as char else ch
  }

  function ToLowerChar(ch: char): (r: char)
    ensures IsLetter(ch) ==> IsLower(r)
    ensures !IsLetter(ch) ==> r == ch
  {
    if IsUpper(ch) then (ch as int + 32) as char else ch
  }

  /** Python `s.lower()` restricted to ASCII letters. */
  function Lower(s: string): (r: string)
    ensures |r| == |s|
    ensures forall i :: 0 <= i < |s| ==> r[i] == ToLowerChar(s[i])
  {
    seq(|s|, i requires 0 <= i < |s| => ToLowerChar(s[i]))
  }

  /** Python `s.replace(a, b)` for single characters. */
  function ReplaceChar(s: string, a: char, b: char): (r: string)
    ensures |r| == |s|
    ensures forall i :: 0 <= i < |s| ==> r[i] == (if s[i] == a then b else s[i])
  {
    seq(|s|, i requires 0 <= i < |s| => if s[i] == a then b else s[i])
  }

  /** Python `s.title()` on ASCII: a letter is upper-cased when it starts a
      run of letters and lower-cased otherwise; other characters are kept.
      `prevCased` says whether the character before `s` was a letter. */
  function TitleFrom(s: string, prevCased: bool): (r: string)
    ensures |r| == |s|
  {
    if s == [] then ""
    else
      var ch := s[0];
      var out := if !IsLetter(ch) then ch else if prevCased then ToLowerChar(ch) else ToUpperChar(ch);
      [out] + TitleFrom(s[1..], IsLetter(ch))
  }

  function Title(s: string): string
  {
    TitleFrom(s, false)
  }

  /** The character-wise reading of `str.title`, independent of the scan. */
  function TitleCharAt(s: string, i: nat): char
    requires i < |s|
  {
    if !IsLetter(s[i]) then s[i]
    else if i > 0 && IsLetter(s[i - 1]) then ToLowerChar(s[i])
    else ToUpperChar(s[i])
  }

  lemma {:induction false} TitleFromPointwise(s: string, prevCased: bool, i: nat)
    requires i < |s|
    ensures TitleFrom(s, prevCased)[i] ==
      (if !IsLetter(s[i]) then s[i]
       else if (if i == 0 then prevCased else IsLetter(s[i - 1])) then ToLowerChar(s[i])
       else ToUpperChar(s[i]))
  {
    if i > 0 {
      TitleFromPointwise(s[1..], IsLetter(s[0]), i - 1);
    }
  }

  /** `Title` agrees with the character-wise reading at every position. */
  lemma TitlePointwise(s: string)
    ensures |Title(s)| == |s|
    ensures forall i :: 0 <= i < |s| ==> Title(s)[i] == TitleCharAt(s, i)
  {
    forall i | 0 <= i < |s|
      ensures Title(s)[i] == TitleCharAt(s, i)
    {
      TitleFromPointwise(s, false, i);
    }
  }

  /** Lower-casing works character by character. */
  lemma LowerCons(x: char, t: string)
    ensures Lower([x] + t) == [ToLowerChar(x)] + Lower(t)
  {
  }

  /** `ys` is `xs` lower-cased piece by piece. */
  predicate PiecesLower(xs: seq<string>, ys: seq<string>)
  {
    |xs| == |ys| && forall i :: 0 <= i < |xs| ==> ys[i] == Lower(xs[i])
  }

  lemma PiecesLowerCons(x: string, y: string, xs: seq<string>, ys: seq<string>)
    requires y == Lower(x) && PiecesLower(xs, ys)
    ensures PiecesLower([x] + xs, [y] + ys)
  {
  }

  /** Lower-casing commutes with splitting on a non-letter. */
  lemma {:induction false} SplitLower(s: string, c: char)
    requires !IsLetter(c)
    ensures PiecesLower(Split(s, c), Split(Lower(s), c))
  {
    if s != [] {
      var ls := Lower(s);
      assert ls == [ToLowerChar(s[0])] + Lower(s[1..]) by { LowerCons(s[0], s[1..]); assert s == [s[0]] + s[1..]; }
      assert ls[1..] == Lower(s[1..]);
      SplitLower(s[1..], c);
      var rest := Split(s[1..], c);
      var lrest := Split(Lower(s[1..]), c);
      if s[0] == c {
        PiecesLowerCons("", "", rest, lrest);
      } else {
        assert ls[0] != c;
        LowerCons(s[0], rest[0]);
        PiecesLowerCons([s[0]] + rest[0], [ls[0]] + lrest[0], rest[1..], lrest[1..]);
      }
    }
  }

  /** The lower-cased text after the last non-letter separator is the text
      after the last separator of the lower-cased string. */
  lemma AfterLastLower(s: string, c: char)
    requires !IsLetter(c)
    ensures AfterLast(Lower(s), c) == Lower(AfterLast(s, c))
  {
    SplitLower(s, c);
  }

  /** Where the pieces of a seven-part concatenation sit. */
  lemma ConcatSlices(h: string, f: string, g: string, j: string, t: string, l: string, e: string)
    ensures var r := h + f + g + j + t + l + e;
      var a := |h|;
      var b := a + |f|;
      var c := b + |g|;
      var d := c + |j|;
      var x := d + |t|;
      && |r| == x + |l| + |e|
      && r[..a] == h
      && r[a..b] == f
      && r[c..d] == j
      && r[x..x + |l|] == l
  {
  }

  /** The text after the last separator of `a + [c] + b`, when `b` has none,
      is `b`. */
  lemma AfterLastOfAppend(a: string, c: char, b: string)
    requires c !in b
    ensures AfterLast(a + [c] + b, c) == b
  {
    var s := a + [c] + b;
    AfterLastShape(s, c);
    var e := AfterLast(s, c);
    assert s[|s| - |b|..] == b;
    assert s[|s| - |b| - 1] == c;
  }
}
